=== FILE: README.md ===
# Snapper fling engine, in Dafny

This project models the scroll-snapping engine of `SnapperFlingBehavior.kt`
and proves properties of that model. When the user releases a lazy list, the
engine picks the item the list should come to rest on. It lets a decay
animation carry the list toward that item and then springs the item onto its
snap offset. It finally hands back any velocity that an edge of the list
stopped it from using.

The model has five modules:

- `Wrappers` holds `Option` for Kotlin's nullable results and `Result` for a
  call that either returns or throws `IllegalArgumentException`.
- `KotlinMath` holds the Kotlin numeric operations the engine relies on where
  they differ from Dafny's. These are `Int /`, which truncates toward zero;
  `roundToInt`, which rounds half-way cases up and saturates at the `Int`
  bounds; `coerceIn`, which throws on an empty range; and 32-bit `Int`
  addition, which the model applies only to the index sum of
  `determineTargetIndex` (see "Left out" for the pixel sums).
- `SnapperLayout` holds the layout queries of `LazyListSnapperLayoutInfo`,
  run over an immutable `ListSnapshot` of the list's visible items. The three
  stock `SnapOffsets` are Start, Center and End.
- `TargetIndex` holds `determineTargetIndex`. Its final integer steps are
  modelled twice: once with unbounded integers, and once as the Kotlin `Int`
  code computes them (see Findings).
- `SnapperFling` holds the decision logic of `SnapperFlingBehavior`:
  - `performFling` and `flingToIndex`;
  - the decay and spring phases, as recursion over a sequence of frames
    supplied by the clock;
  - the per-frame cancel rules;
  - snap-back and the velocity hand-back.

Some things are parameters of the model rather than parts of it:

- **The scrolling host (`ScrollScope.scrollBy`).** It is a function from a
  snapshot and a requested delta to the new snapshot and the pixels consumed.
- **The animation specs.** They are a `Physics` value with three parts: the
  decay projection `calculateTargetValue(0, v)`, the decay frames for a release
  velocity, and the spring frames for a start velocity and a target value.
  Each frame carries its value, its velocity, and whether the clock marks it
  as final. In Compose, `isRunning` is already false during the callback of
  the final frame.
- **The `snapIndex` and `maximumFlingDistance` hooks.** They are fields of
  `Behavior`. In the Kotlin class only `snapIndex` can be chosen: the
  constructor that takes `maximumFlingDistance` is private, and the public
  one fixes it to `{ Float.MAX_VALUE }`, so a non-positive bound
  (`MaxFlingDistanceNotPositive`) cannot arise there. The model keeps the
  bound as a parameter and states that error path as well.

Velocities and distances are reals. Offsets, sizes and indices are integers.

## Model

All source paths are under `app/src/main/java/com/sportnew/common/`. The
cells below give them in full.

| member | source | states |
|---|---|---|
| KotlinMath.TruncDiv | app/src/main/java/com/sportnew/common/SnapperFlingBehavior.kt:253-255 | Kotlin `Int /` truncates toward zero: the remainder is non-negative and below the divisor for a non-negative dividend, and non-positive for a negative one |
| KotlinMath.TruncDivIsEuclideanOnNonNegative | app/src/main/java/com/sportnew/common/SnapperFlingBehavior.kt:253-255 | for a non-negative dividend and positive divisor the two divisions agree, so Center only differs when the item is larger than the viewport |
| KotlinMath.TruncDivDiffersOnNegative | app/src/main/java/com/sportnew/common/SnapperFlingBehavior.kt:253-255 | -3 halves to -1 under Kotlin's division but to -2 under the Euclidean one |
| KotlinMath.RoundToInt | app/src/main/java/com/sportnew/common/SnapperFlingBehavior.kt:91-92 | `roundToInt` gives the integer within half a unit, with half-way cases going up |
| KotlinMath.RoundToIntMonotone | app/src/main/java/com/sportnew/common/SnapperFlingBehavior.kt:91-92 | a larger argument never rounds to a smaller integer |
| KotlinMath.SaturatingRoundToInt | app/src/main/java/com/sportnew/common/SnapperFlingBehavior.kt:143 | `Double.roundToInt` stays in the `Int` range, saturates beyond it, and rounds to nearest inside it |
| KotlinMath.Int32Wrap | app/src/main/java/com/sportnew/common/SnapperFlingBehavior.kt:145 | `Int` addition lands in the 32-bit range, agrees with the true sum modulo 2^32, and is exact when the true sum fits |
| KotlinMath.CoerceIn | app/src/main/java/com/sportnew/common/SnapperFlingBehavior.kt:145 | `coerceIn` fails exactly on an empty range, and otherwise gives the point of the range nearest the input |
| KotlinMath.CoerceInReal | app/src/main/java/com/sportnew/common/SnapperFlingBehavior.kt:131 | the `Float` `coerceIn` fails exactly on an empty range, and otherwise gives the nearest point of the range |
| SnapperLayout.SnapOffset | app/src/main/java/com/sportnew/common/SnapperFlingBehavior.kt:249-260 | Start puts the leading edge on the viewport start and End puts the trailing edge on the viewport end. Center puts the item within half a pixel of the middle, with the odd half pixel going toward zero |
| SnapperLayout.CenterTruncatesTowardZero | app/src/main/java/com/sportnew/common/SnapperFlingBehavior.kt:253-255 | an item one pixel larger than the viewport is centred at 0, where Euclidean halving would give -1 |
| SnapperLayout.LastAtOrBeforeSnap | app/src/main/java/com/sportnew/common/SnapperFlingBehavior.kt:76-78 | the position found has reached its snap offset and no later item has; -1 when none has |
| SnapperLayout.CurrentItem | app/src/main/java/com/sportnew/common/SnapperFlingBehavior.kt:76-78 | the current item is absent exactly when no visible item has reached its snap offset; otherwise it is a visible item that has reached it, with no later visible item having done so |
| SnapperLayout.FirstWithIndex | app/src/main/java/com/sportnew/common/SnapperFlingBehavior.kt:85 | `firstOrNull { it.index == index }`: the first position carrying the index, or -1 when none does |
| SnapperLayout.MinByOffset | app/src/main/java/com/sportnew/common/SnapperFlingBehavior.kt:159 | `minByOrNull { it.offset }`: the item found has the smallest offset |
| SnapperLayout.MaxByEnd | app/src/main/java/com/sportnew/common/SnapperFlingBehavior.kt:160 | `maxByOrNull { it.offset + it.size }`: the item found has the largest trailing edge |
| SnapperLayout.CalculateItemSpacing | app/src/main/java/com/sportnew/common/SnapperFlingBehavior.kt:148-154 | with two or more visible items the spacing is the gap from the first item's trailing edge to the second item's leading edge, and 0 otherwise |
| SnapperLayout.EstimateDistancePerItem | app/src/main/java/com/sportnew/common/SnapperFlingBehavior.kt:156-169 | the estimate is -1 for an empty layout and for a layout whose span is empty |
| SnapperLayout.EstimateIsMeanExtent | app/src/main/java/com/sportnew/common/SnapperFlingBehavior.kt:156-169 | otherwise the estimate is the span from the lowest leading edge to the highest trailing edge, plus one item spacing, divided by the number of visible items |
| SnapperLayout.DistanceToIndexSnap | app/src/main/java/com/sportnew/common/SnapperFlingBehavior.kt:84-94 | a visible item gets its exact offset minus its snap offset. An item that is not visible gets 0 when there is no current item, and otherwise the rounded extrapolation from the current item plus the current item's residual |
| SnapperLayout.ExtrapolateWithinHalf | app/src/main/java/com/sportnew/common/SnapperFlingBehavior.kt:91-93 | the extrapolated distance is the reference item's residual plus the estimated travel to the index, off by at most half a pixel, and it is that residual from the reference item itself |
| SnapperLayout.WellFormedIndicesDistinct | app/src/main/java/com/sportnew/common/SnapperFlingBehavior.kt:80-82 | a well-formed layout never shows an index twice, so `firstOrNull` by index is unambiguous |
| SnapperLayout.CanScrollTowardsStart | app/src/main/java/com/sportnew/common/SnapperFlingBehavior.kt:96-100 | an empty layout cannot scroll toward the start |
| SnapperLayout.CanScrollTowardsEnd | app/src/main/java/com/sportnew/common/SnapperFlingBehavior.kt:102-106 | an empty layout cannot scroll toward the end |
| SnapperLayout.StartBlockedIffFirstItemShown | app/src/main/java/com/sportnew/common/SnapperFlingBehavior.kt:96-100 | on a well-formed layout the start is blocked exactly when item 0 is visible with its leading edge at or after the viewport start |
| SnapperLayout.EndBlockedIffLastItemShown | app/src/main/java/com/sportnew/common/SnapperFlingBehavior.kt:102-106 | on a well-formed layout the end is blocked exactly when the last item of the list is visible with its trailing edge at or before the viewport end |
| SnapperLayout.UniformRunAt | app/src/main/java/com/sportnew/common/SnapperFlingBehavior.kt:148-154 | a closed-form helper lemma for uniform runs: in a run of equal items with equal gaps, item k has index first+k and offset first + k times the pitch |
| SnapperLayout.UniformEstimateIsPitch | app/src/main/java/com/sportnew/common/SnapperFlingBehavior.kt:148-169 | when the items are equal and equally spaced, the per-item estimate is exactly one item plus one gap |
| SnapperLayout.UniformExtrapolationIsExact | app/src/main/java/com/sportnew/common/SnapperFlingBehavior.kt:84-94 | on such a layout, extrapolating from any visible item to another visible item reproduces the measured distance |
| TargetIndex.CoerceIndex | app/src/main/java/com/sportnew/common/SnapperFlingBehavior.kt:145 | `coerceIn(0, itemCount - 1)` fails exactly on an empty list, and otherwise gives the list index nearest the request |
| TargetIndex.CoerceIndexBetween | app/src/main/java/com/sportnew/common/SnapperFlingBehavior.kt:145 | the clamp sends requests below the list to 0, requests past it to the last index, and leaves indices of the list unchanged |
| TargetIndex.SlowPick | app/src/main/java/com/sportnew/common/SnapperFlingBehavior.kt:124-127 | before `coerceIn`, the slow pick is the current or the next item, whichever has the smaller distance to its snap offset, and the next item on a tie |
| TargetIndex.IndexOffset | app/src/main/java/com/sportnew/common/SnapperFlingBehavior.kt:140-143 | the offset in items times the per-item estimate is the fling distance less the current item's distance, so it is non-negative exactly when the fling reaches the current item's snap offset |
| TargetIndex.AdjustedFlingDistance | app/src/main/java/com/sportnew/common/SnapperFlingBehavior.kt:130-138 | the projection is clamped to plus or minus the fling bound, then measured from a snap boundary. A projection beyond the bound is replaced by the bound, one inside it is kept, and the sum is capped at 0 toward the start and floored at 0 toward the end. The result is bounded by the fling bound, and it fails exactly on a negative bound |
| TargetIndex.ChooseTarget | app/src/main/java/com/sportnew/common/SnapperFlingBehavior.kt:115-145 | the current index when the estimate is not positive. Otherwise it fails exactly on an empty list or a fast release with a negative bound, and otherwise gives an index of the list; which index a fast release picks is stated by `ChooseFastPicksNearestEstimate` |
| TargetIndex.ChooseFastPicksNearestEstimate | app/src/main/java/com/sportnew/common/SnapperFlingBehavior.kt:130-145 | a fast release with a non-negative bound picks item k, clamped to the list, whenever the adjusted landing point lies within half an item's extent of k's estimated position counted from the current item |
| TargetIndex.ChooseTargetInt32 | app/src/main/java/com/sportnew/common/SnapperFlingBehavior.kt:140-145 | the Kotlin `Int` arithmetic also yields an index of the list, and agrees with the unbounded choice on slow releases |
| TargetIndex.ChooseTargetInt32AgreesWithinInt | app/src/main/java/com/sportnew/common/SnapperFlingBehavior.kt:143-145 | when the rounded offset and `curr.index + indexOffset` both fit in `Int`, the Kotlin arithmetic chooses exactly what the unbounded arithmetic chooses, so the two differ only past the `Int` range |
| TargetIndex.DetermineTargetIndex | app/src/main/java/com/sportnew/common/SnapperFlingBehavior.kt:108-146 | -1 without a current item, the current index when the estimate is not positive, and otherwise an index of the list unless a `coerceIn` range is empty |
| TargetIndex.FastTargetIsNearestEstimate | app/src/main/java/com/sportnew/common/SnapperFlingBehavior.kt:130-145 | on any layout with a current item and a positive estimate, a fast release targets item k, clamped to the list, whenever the adjusted landing point lies within half an item's extent of k's estimated position |
| TargetIndex.ChooseForwardNeverBehind | app/src/main/java/com/sportnew/common/SnapperFlingBehavior.kt:130-145 | with the current item settled, a release toward the end never chooses an item before the current one |
| TargetIndex.ChooseBackwardAtMostOne | app/src/main/java/com/sportnew/common/SnapperFlingBehavior.kt:130-145 | with the current item less than one item's extent before its snap offset, a release toward the start never chooses beyond the next item |
| TargetIndex.ChooseSlowPicksNearer | app/src/main/java/com/sportnew/common/SnapperFlingBehavior.kt:123-128 | a slow release from a current item of the list always succeeds. When the next item is also in the list, it picks the current item exactly when that item is strictly nearer its snap offset, and the next item exactly when the next item is as near or nearer (so on a tie). From the last item it picks the last item, because `coerceIn` clamps the next index |
| TargetIndex.ChooseForwardWithinReach | app/src/main/java/com/sportnew/common/SnapperFlingBehavior.kt:130-145 | a forward release whose projection stops short of the next item's snap offset chooses the current or the next item, when the next item is at most one estimated extent further on |
| TargetIndex.CurrentResidual | app/src/main/java/com/sportnew/common/SnapperFlingBehavior.kt:76-94 | on a well-formed layout the current item is an item of the list, measured exactly, at or before its snap offset |
| TargetIndex.TargetAlwaysInRange | app/src/main/java/com/sportnew/common/SnapperFlingBehavior.kt:108-146 | on a well-formed layout with a current item and a non-negative fling bound, the target is in `[0, totalItemsCount)` whatever the velocity and projection |
| TargetIndex.ForwardFlingNeverTargetsBehind | app/src/main/java/com/sportnew/common/SnapperFlingBehavior.kt:130-145 | on a well-formed layout a release toward the end never targets an item before the current one |
| TargetIndex.BackwardFlingAdvancesAtMostOne | app/src/main/java/com/sportnew/common/SnapperFlingBehavior.kt:130-145 | on a well-formed layout a release toward the start targets at most the next item when the current item's residual is under one item's extent |
| TargetIndex.BackwardFlingPastLongItemSkipsAhead | app/src/main/java/com/sportnew/common/SnapperFlingBehavior.kt:130-145 | without that condition the bound fails: on a well-formed layout whose current item starts 1000 before its snap offset, a release toward the start targets item 7, two past the current item 5, and the spring toward it runs 300 toward the end |
| TargetIndex.WrapExampleMeasures | app/src/main/java/com/sportnew/common/SnapperFlingBehavior.kt:108-121 | the Findings layout has item 5 current, 100 pixels per item, and distances 0 and 100 to items 5 and 6 |
| TargetIndex.HugeForwardFlingWrapsToStart | app/src/main/java/com/sportnew/common/SnapperFlingBehavior.kt:143-145 | as written, a forward fling projecting 10^10 items lands on index 0 |
| TargetIndex.HugeForwardFlingReachesEnd | app/src/main/java/com/sportnew/common/SnapperFlingBehavior.kt:143-145 | with the intended arithmetic, the same fling lands on the last index, 19 |
| SnapperFling.ConsumeVelocityIfNotAtScrollEdge | app/src/main/java/com/sportnew/common/SnapperFlingBehavior.kt:501-508 | the result is the velocity or 0, and it is non-zero exactly when the velocity points at a blocked edge |
| SnapperFling.LeftoverOnlyAtShownEnd | app/src/main/java/com/sportnew/common/SnapperFlingBehavior.kt:501-508 | on a well-formed layout a handed-back velocity means the list's first item (toward the start) or last item (toward the end) is fully in view on that side |
| SnapperFling.CalculateSnapBack | app/src/main/java/com/sportnew/common/SnapperFlingBehavior.kt:485-499 | the snap-back is non-zero only on overshoot. Toward the end it is the current item's distance; toward the start, with the current item before the target, it is the next item's distance |
| SnapperFling.Shift | app/src/main/java/com/sportnew/common/SnapperFlingBehavior.kt:371-372 | a rigid scroll keeps the viewport, the padding, the item count and the number of visible items; `ShiftMovesEveryItem` states what it does to each item |
| SnapperFling.ShiftMovesEveryItem | app/src/main/java/com/sportnew/common/SnapperFlingBehavior.kt:371-372 | a rigid scroll by d lowers every visible item's offset by d and keeps its index and size, so the same items stay in view |
| SnapperFling.SnapBackAligns | app/src/main/java/com/sportnew/common/SnapperFlingBehavior.kt:485-499 | scrolling rigidly by the snap-back distance leaves the item it was measured against exactly on its snap offset |
| SnapperFling.ShiftedResidual | app/src/main/java/com/sportnew/common/SnapperFlingBehavior.kt:84-88 | after a rigid scroll by d, the distance to any visible item's index is its former residual less d |
| SnapperFling.PerformSnapBackIfNeeded | app/src/main/java/com/sportnew/common/SnapperFlingBehavior.kt:455-468 | it scrolls by the snap-back amount, once, exactly when that amount is non-zero, and reports whether it did |
| SnapperFling.RigidSnapBackLands | app/src/main/java/com/sportnew/common/SnapperFlingBehavior.kt:455-468 | on a well-formed layout and a rigid host, a snap-back leaves the measured item on its snap offset |
| SnapperFling.CanDecayBeyondCurrentItem | app/src/main/java/com/sportnew/common/SnapperFlingBehavior.kt:470-483 | never for a slow release. Toward the start, exactly when the projection reaches the current item's distance; toward the end, exactly when it reaches the next item's |
| SnapperFling.NoDecayMeansAdjacentTarget | app/src/main/java/com/sportnew/common/SnapperFlingBehavior.kt:470-483 | on a well-formed layout, when the decay is skipped for a forward release with a forward projection and the next item at most one estimated extent away, the target is the current item or the next one, so the spring alone has at most one item to cover |
| SnapperFling.AtSpringPoint | app/src/main/java/com/sportnew/common/SnapperFlingBehavior.kt:385-391 | the hand-over point is one item short of the target for a release toward the end, and on the target for a release toward the start; a zero velocity never hands over |
| SnapperFling.Ending | app/src/main/java/com/sportnew/common/SnapperFlingBehavior.kt:375-377 | a frame that nothing else stops ends the phase by truncation when the host fell short by more than half a pixel, by finishing on the final frame, and otherwise lets it run on |
| SnapperFling.FrameTick | app/src/main/java/com/sportnew/common/SnapperFlingBehavior.kt:369-446 | covers the per-frame rules: <br>- the frame scrolls by its value less the previous frame's value; <br>- a lost current item stops the phase, and so does truncation; <br>- a final frame never lets the phase continue; <br>- the decay's spring point needs a target two or more items away, a running frame, and the current item at the hand-over point; <br>- after truncation or on the final frame the decay neither hands over nor snaps back; <br>- a snap-back scrolls exactly the `calculateSnapBack` amount measured after the frame's scroll, and the list is where that scroll left it |
| SnapperFling.DecayTickRules | app/src/main/java/com/sportnew/common/SnapperFlingBehavior.kt:369-401 | once the current item is still there, a running decay frame hands over at the spring point when allowed, else snaps back on a non-zero amount, else runs on; a truncated or final frame stops by truncation or by finishing |
| SnapperFling.SpringTickRules | app/src/main/java/com/sportnew/common/SnapperFlingBehavior.kt:431-446 | once the current item is still there, a spring frame snaps back whenever the amount is non-zero, on any frame, and otherwise stops exactly on truncation or the final frame |
| SnapperFling.PhaseCallbackKeepsContract | app/src/main/java/com/sportnew/common/SnapperFlingBehavior.kt:369-446 | each phase's frame callback scrolls by the frame's delta, reports a snap-back exactly when it scrolled one, runs on only before the final frame, and only the decay that may hand over ever reaches the spring point |
| SnapperFling.RunFrames | app/src/main/java/com/sportnew/common/SnapperFlingBehavior.kt:366-401 | the animation loop feeds frames until a callback stops it: it uses a prefix of the frames and keeps the last used frame's velocity and value. For a callback that scrolls by each frame's delta and runs on only before the final frame, no frame before the last used is final, the loop runs dry only on a clock with no final frame, and it finishes only on a final frame |
| SnapperFling.RunPhase | app/src/main/java/com/sportnew/common/SnapperFlingBehavior.kt:366-447 | a phase uses a prefix of the clock's frames, no frame before its last one is final, and it leaves the velocity and value of the last frame it used. It runs dry only when no frame was final, finishes only on a final frame, reports a snap-back exactly when it stopped on one, and reaches the spring point only in a decay that may hand over |
| SnapperFling.PhaseStopsAtFirstCancel | app/src/main/java/com/sportnew/common/SnapperFlingBehavior.kt:375-400 | a phase ends at the first frame whose callback cancels, with that frame's reason, layout and snap-back; a frame that does not cancel is followed by the rest of the clock from where it left the list |
| SnapperFling.StuckHostStopsAtFirstFrame | app/src/main/java/com/sportnew/common/SnapperFlingBehavior.kt:370-377 | a host that takes none of a first frame moving more than half a pixel ends the phase on that frame, by truncation or a lost current item in the decay, and possibly by a snap-back in the spring |
| SnapperFling.PhaseDeltasTelescope | app/src/main/java/com/sportnew/common/SnapperFlingBehavior.kt:370-373 | the frame deltas a phase scrolls add up to the distance its animation travelled |
| SnapperFling.MarkedClockEndsPhase | app/src/main/java/com/sportnew/common/SnapperFlingBehavior.kt:365-447 | a clock whose last frame is marked final always ends the phase on a frame |
| SnapperFling.DecayPhase | app/src/main/java/com/sportnew/common/SnapperFlingBehavior.kt:358-401 | the decay runs on the whole decay clock: it uses at least one frame of a non-empty clock, no frame before its last one is final, it runs dry only after every frame with none final, and it finishes only on a final frame. It hands over to the spring only for a target two or more items away, and does so on the first frame when that frame runs, is not truncated and finds the current item at the hand-over point |
| SnapperFling.PerformDecayFling | app/src/main/java/com/sportnew/common/SnapperFlingBehavior.kt:348-407 | on the target and snapped, the velocity only goes through the edge check and the list stays. Otherwise the result is where the decay left the list with its velocity, which is the release velocity (no frames) or the velocity of one of the decay frames |
| SnapperFling.SpringStartVelocity | app/src/main/java/com/sportnew/common/SnapperFlingBehavior.kt:414-418 | the spring starts with the leftover velocity only when it heads toward the target, else with 0 |
| SnapperFling.SpringPhase | app/src/main/java/com/sportnew/common/SnapperFlingBehavior.kt:414-447 | the spring runs on the whole spring clock toward the target's distance from its snap offset at the start velocity: it uses at least one frame of a non-empty clock, no frame before its last one is final, it runs dry only after every frame with none final, it finishes only on a final frame with no snap-back, and it never hands over |
| SnapperFling.PerformSpringFling | app/src/main/java/com/sportnew/common/SnapperFlingBehavior.kt:409-453 | the result is where the spring left the list with the velocity of the last spring frame it used, or the start velocity when there were none |
| SnapperFling.PhaseCallbackScrollsThrough | app/src/main/java/com/sportnew/common/SnapperFlingBehavior.kt:369-446 | each frame callback moves the list through the host by the frame's delta and then by its snap-back when that is non-zero, and it snaps back only when it stops the phase |
| SnapperFling.RigidFramesShift | app/src/main/java/com/sportnew/common/SnapperFlingBehavior.kt:370-373 | through a rigid whole-pixel host and a whole-pixel clock, a run that used any frames moved the list by the value of its last frame less the start value, plus its snap-back |
| SnapperFling.RigidFramesFinish | app/src/main/java/com/sportnew/common/SnapperFlingBehavior.kt:424-447 | with a clock whose final frame is at the goal, a run that finishes without a snap-back moved the list by exactly the goal |
| SnapperFling.RigidDecayShift | app/src/main/java/com/sportnew/common/SnapperFlingBehavior.kt:366-401 | through a rigid host and a whole-pixel decay clock, a decay that used any frames leaves the list moved by the last used frame's value plus the snap-back |
| SnapperFling.ShiftByDistanceLands | app/src/main/java/com/sportnew/common/SnapperFlingBehavior.kt:84-88 | scrolling rigidly by a visible item's distance to its snap offset puts that item on its snap offset |
| SnapperFling.RigidSpringShift | app/src/main/java/com/sportnew/common/SnapperFlingBehavior.kt:424-447 | through a rigid host, a spring whose whole-pixel clock ends on the target value and that runs to its final frame moves the list by exactly the target's distance to its snap offset |
| SnapperFling.RigidSpringLands | app/src/main/java/com/sportnew/common/SnapperFlingBehavior.kt:428 | under the same conditions, a target visible when the spring starts ends exactly on its snap offset |
| SnapperFling.FlingToIndex | app/src/main/java/com/sportnew/common/SnapperFlingBehavior.kt:316-346 | without a current item the velocity comes back unchanged, and on an already snapped target only the edge check applies. Otherwise it decays exactly when `canDecayBeyondCurrentItem` holds; after the decay it returns the release velocity when no current item is left, only the edge check when the list rests on the target, and otherwise springs from the item the decay left with the decay's velocity; without the decay it springs from the release. Every velocity handed back is the release velocity, 0, or one that points at a blocked edge |
| SnapperFling.RigidFlingWithoutDecayLands | app/src/main/java/com/sportnew/common/SnapperFlingBehavior.kt:316-346 | a fling too slow to decay past the current item, through a rigid host and a spring that runs to its final frame, leaves a target visible at the release exactly on its snap offset |
| SnapperFling.RigidFlingAfterDecayLands | app/src/main/java/com/sportnew/common/SnapperFlingBehavior.kt:328-343 | a fling that decays first, through a rigid host, leaves the target on its snap offset when the decay leaves a well-formed layout with the target in view and the spring from there runs to its final frame on a whole-pixel clock ending at the target |
| SnapperFling.StartIndex | app/src/main/java/com/sportnew/common/SnapperFlingBehavior.kt:306 | the start index handed to `snapIndex` is the current index, or the one after it exactly for a release toward the start |
| SnapperFling.PerformFling | app/src/main/java/com/sportnew/common/SnapperFlingBehavior.kt:285-314 | covers the entry and exit rules: <br>- a blocked edge returns the velocity unchanged and does not move the list; <br>- a non-positive fling bound on a scrollable list is the `require` failure, and only it; <br>- without a current item the velocity is returned; <br>- a failing `determineTargetIndex` passes its failure on; <br>- the `snapIndex` result is the other `require` failure exactly when it is outside the list, and otherwise the fling is `flingToIndex` to it; <br>- any velocity handed back is the release velocity, 0, or one pointing at a blocked edge |
| SnapperFling.DefaultFlingNeverFails | app/src/main/java/com/sportnew/common/SnapperFlingBehavior.kt:285-314 | with the default `snapIndex` and a positive fling bound, a fling on a well-formed layout never raises |

## Left out

- The Compose plumbing is left out: `remember`, `derivedStateOf`, the `@Composable` factories, and the `animationTarget` state field, which the engine only sets and clears. None of it affects what a fling does.
- The spline decay and the spring physics (`calculateTargetValue`, `animateDecay`, `animateTo`, `spring(stiffness = 400f)`) are left out. They enter only as the `Physics` parameter: a projection function and the frame sequences each animation yields.
- Coroutine suspension and cancellation are left out. A fling is one pure computation, and a `cancelAnimation()` call ends the frame recursion.
- IEEE `Float`/`Double` rounding is left out. Velocities and distances are exact reals, so the `0.5f` thresholds and the divisions are exact.
- Custom `snapOffsetForItem` lambdas are left out; only the stock Start, Center and End offsets are modelled.
- `SnapperLayout.DistanceToIndexSnap` does not model 32-bit wrap-around of the `Int` sum at SnapperFlingBehavior.kt:91-93, nor saturation of its `roundToInt`. Its exact-distance case is stated for layouts without repeated indices, which every well-formed layout satisfies (`WellFormedIndicesDistinct`).
- `SnapperLayout.EstimateDistancePerItem` states its mean-extent property in the separate lemma `EstimateIsMeanExtent`, not in its own contract.
- Pixel arithmetic on `Int` is exact in the model. This covers `offset - snapOffset` (SnapperFlingBehavior.kt:87), the trailing edges `offset + size` (:104, :163), the span and spacing sums (:152, :165-167) and the snap offsets (:254, :258). Kotlin wraps these at 32 bits, so the model can differ from the program only for offsets or sizes near 2^31.
- `TargetIndex.BackwardFlingAdvancesAtMostOne` holds only when the current item lies less than one estimated item extent before its snap offset. The code has no such bound in general: `BackwardFlingPastLongItemSkipsAhead` exhibits a release toward the start whose target is two items past the current one. The model follows the code.
- `TargetIndex.ChooseTarget` and the members built on it use unbounded integers for the final `curr.index + indexOffset`. The `Int` behaviour is in `ChooseTargetInt32`; see Findings.
- `SnapperFling.FlingToIndex` and `SnapperFling.PerformFling` do not guarantee that the list ends on its target. The code gives no such guarantee either: a phase also stops on a truncated scroll, on a lost current item, or when the clock runs out of frames.
- The velocity handed back may differ from the release velocity. The code hands back the velocity of the last animation frame whenever it points at a blocked edge. It does not always hand back the release velocity, and the contracts follow the code.
- The `flingThenSpring` parameter of `performDecayFling` is always left at its default `true`, so `Decay(canSpringThenFling)` only takes the target-distance test.
- The list's final position is proved only through a rigid host, one that moves the content by the whole pixels asked for, takes all of them and keeps the same visible items (so no item enters or leaves the viewport), and with clocks whose values are whole pixels. `RigidDecayShift`, `RigidSpringShift`, `RigidSpringLands` and `RigidFlingWithoutDecayLands` state it under those conditions.
- `SnapperFling.RigidFlingAfterDecayLands` assumes what the decay leaves behind: a well-formed layout with a current item and the target in view. Where a decay stops depends on the decay clock, which is a parameter of the model, so no lemma derives those conditions from the release.
- `WheelDatePicker.kt`, `datedemo.kt` and `SnappedDate.kt` are not part of this model: they are screen composition, demo state and a plain data carrier.

## Findings

| source | as written | input that shows it | evidently intended | confidence | as-written member | corrected member |
|---|---|---|---|---|---|---|
| app/src/main/java/com/sportnew/common/SnapperFlingBehavior.kt:143-145 | `(…).roundToInt()` saturates at `Int.MAX_VALUE`, and `curr.index + indexOffset` then wraps to a negative `Int`, which `coerceIn` clamps to 0 | items 5, 6, 7 of a 20-item list at offsets 0, 100, 200 (size 100, Start alignment), release velocity 1000, decay projection 10^12 pixels, `maximumFlingDistance` at its default `Float.MAX_VALUE`: the target becomes index 0, behind the current item 5 | a forward fling that far lands on the last item, 19 | low, not executed; needs a projection of about 2^31 items | TargetIndex.HugeForwardFlingWrapsToStart | TargetIndex.ChooseForwardNeverBehind |

=== FILE: fling.dfy ===
/** `SnapperFlingBehavior`: what a fling does with the list. A fling picks a
    target item, lets the decay animation carry the list toward it, springs
    onto the target's snap offset, and hands back the velocity it did not
    use. Animation clocks and the scrolling host are parameters: the clock
    yields the frames of each animation, the host applies a scroll and
    reports how much of it the list took. */
module SnapperFling {
  import opened Wrappers
  import opened KotlinMath
  import opened SnapperLayout
  import opened TargetIndex

  /** One animation frame: the animated value (pixels travelled since the
      animation started), its velocity, and whether the clock marks it as
      the animation's final frame (`isRunning` already false). */
  datatype Frame = Frame(value: real, velocity: real, isLastFrame: bool)

  /** The host's answer to `scrollBy`: the new layout and the pixels it
      actually consumed. */
  datatype Scrolled = Scrolled(state: ListSnapshot, consumed: real)

  /** `ScrollScope.scrollBy` against a layout. */
  type ScrollHost = (ListSnapshot, real) -> Scrolled

  /** The animation specs, as clocks: the decay spec's projected travel
      (`calculateTargetValue(0, v)`), the frames of a decay from value 0 at a
      release velocity, and the frames of a spring from value 0 at a start
      velocity to a target value. */
  datatype Physics = Physics(
    decayTarget: real -> real,
    decayFrames: real -> seq<Frame>,
    springFrames: (real, real) -> seq<Frame>)

  /** A configured fling behaviour: the snap offset, the animation specs,
      the `snapIndex` hook (layout, start index, target index) and the
      `maximumFlingDistance` hook. */
  datatype Behavior = Behavior(
    align: SnapOffsets,
    physics: Physics,
    snapIndex: (LayoutInfo, int, int) -> int,
    maximumFlingDistance: LayoutInfo -> real)

  /** Where the list is, and what velocity is left, after a piece of the
      fling. */
  datatype Motion = Motion(state: ListSnapshot, velocityLeft: real)

  /** Why an animation phase ended. `ClockExhausted` is the model's own: the
      frames ran out without one the phase stops on. */
  datatype StopReason =
    | Finished            // the clock's final frame
    | Truncated           // the host consumed less than the frame asked for
    | LostCurrentItem     // no item is under the snap line any more
    | ReachedSpringPoint  // decay hands over to the spring
    | SnappedBack         // the list overshot the target and was pulled back
    | ClockExhausted

  /** The two animations of a fling. A decay may stop early to let the
      spring take over when the target is two or more items away. */
  datatype Phase = Decay(canSpringThenFling: bool) | Spring

  /** A velocity that points at an edge the list cannot scroll past. */
  predicate PointsAtBlockedEdge(s: ListSnapshot, velocity: real) {
    (velocity < 0.0 && !CanScrollTowardsStart(s)) || (velocity > 0.0 && !CanScrollTowardsEnd(s))
  }

  /** `consumeVelocityIfNotAtScrollEdge`: a velocity that points at a blocked
      edge is handed back to the caller (for an overscroll effect); any other
      velocity is used up. */
  function ConsumeVelocityIfNotAtScrollEdge(s: ListSnapshot, velocity: real): (r: real)
    ensures r == velocity || r == 0.0
    ensures r != 0.0 <==> PointsAtBlockedEdge(s, velocity)
  {
    if velocity < 0.0 && !CanScrollTowardsStart(s) then velocity
    else if velocity > 0.0 && !CanScrollTowardsEnd(s) then velocity
    else 0.0
  }

  /** On a well-formed layout, a handed-back velocity means the list's first
      item (toward the start) or its last item (toward the end) is fully in
      view on that side. */
  lemma LeftoverOnlyAtShownEnd(s: ListSnapshot, velocity: real)
    requires WellFormed(s) && |s.visibleItems| > 0
    requires ConsumeVelocityIfNotAtScrollEdge(s, velocity) != 0.0
    ensures velocity < 0.0 ==> exists k | 0 <= k < |s.visibleItems| ::
      s.visibleItems[k].index == 0 && s.visibleItems[k].offset >= s.StartScrollOffset()
    ensures velocity > 0.0 ==> exists k | 0 <= k < |s.visibleItems| ::
      s.visibleItems[k].index == s.totalItemsCount - 1 && s.visibleItems[k].EndEdge() <= s.EndScrollOffset()
  {
    StartBlockedIffFirstItemShown(s);
    EndBlockedIffLastItemShown(s);
  }

  /** `calculateSnapBack`: the distance that pulls the list back when it has
      moved past the target. Moving toward the end (positive velocity) with
      the current item at or beyond the target, it is the distance to the
      current item's snap offset; moving toward the start with the current
      item before the target, the distance to the next item's. 0 otherwise. */
  function CalculateSnapBack(info: LayoutInfo, velocity: real, current: Item, target: int): (r: int)
    ensures r != 0 ==> (velocity > 0.0 && current.index >= target) || (velocity < 0.0 && current.index < target)
    ensures velocity > 0.0 && current.index >= target ==> r == DistanceToIndexSnap(info, current.index)
    ensures velocity < 0.0 && current.index < target ==> r == DistanceToIndexSnap(info, current.index + 1)
  {
    if velocity > 0.0 && current.index >= target then DistanceToIndexSnap(info, current.index)
    else if velocity < 0.0 && current.index <= target - 1 then DistanceToIndexSnap(info, current.index + 1)
    else 0
  }

  /** The layout after the content moves by `d` pixels toward the start:
      every visible item's offset drops by `d`, nothing else changes. */
  function Shift(s: ListSnapshot, d: int): (r: ListSnapshot)
    ensures r.viewportEndOffset == s.viewportEndOffset && r.afterContentPadding == s.afterContentPadding
    ensures r.totalItemsCount == s.totalItemsCount && |r.visibleItems| == |s.visibleItems|
  {
    s.(visibleItems := ShiftItems(s.visibleItems, d))
  }

  function ShiftItems(items: seq<Item>, d: int): (r: seq<Item>)
    ensures |r| == |items|
  {
    if |items| == 0 then [] else [items[0].(offset := items[0].offset - d)] + ShiftItems(items[1..], d)
  }

  /** A rigid scroll by `d` lowers every visible item's offset by `d` and
      keeps its index and size. */
  lemma ShiftMovesEveryItem(s: ListSnapshot, d: int)
    ensures forall k | 0 <= k < |s.visibleItems| ::
      Shift(s, d).visibleItems[k] == s.visibleItems[k].(offset := s.visibleItems[k].offset - d)
  {
    ShiftItemsAt(s.visibleItems, d);
  }

  lemma ShiftItemsAt(items: seq<Item>, d: int)
    ensures forall k | 0 <= k < |items| :: ShiftItems(items, d)[k] == items[k].(offset := items[k].offset - d)
  {
    if |items| > 0 {
      ShiftItemsAt(items[1..], d);
      forall k | 0 <= k < |items| ensures ShiftItems(items, d)[k] == items[k].(offset := items[k].offset - d) {
        if k > 0 { assert ShiftItems(items, d)[k] == ShiftItems(items[1..], d)[k - 1]; }
      }
    }
  }

  /** A snap-back lands exactly: when the host scrolls rigidly, the item the
      snap-back measured against (the current item, or the next one when
      moving toward the start and it is in view) ends on its snap offset. */
  lemma SnapBackAligns(info: LayoutInfo, velocity: real, current: Item, target: int)
    requires DistinctIndices(info.state.visibleItems)
    requires velocity > 0.0 && current.index >= target ==> Visible(info.state, current.index)
    requires velocity < 0.0 && current.index < target ==> Visible(info.state, current.index + 1)
    requires CalculateSnapBack(info, velocity, current, target) != 0
    ensures var amount := CalculateSnapBack(info, velocity, current, target);
      var measured := if velocity > 0.0 then current.index else current.index + 1;
      DistanceToIndexSnap(LayoutInfo(Shift(info.state, amount), info.align), measured) == 0
  {
    var amount := CalculateSnapBack(info, velocity, current, target);
    var measured := if velocity > 0.0 then current.index else current.index + 1;
    var vis := info.state.visibleItems;
    var k :| 0 <= k < |vis| && vis[k].index == measured;
    assert amount == ResidualOf(info, vis[k]);
    ShiftedResidual(info, amount, k);
  }

  /** A rigid scroll by `d` keeps the indices apart and lowers every
      visible item's residual by `d`; the distance to item `k`'s index follows. */
  lemma ShiftedResidual(info: LayoutInfo, d: int, k: int)
    requires DistinctIndices(info.state.visibleItems) && 0 <= k < |info.state.visibleItems|
    ensures var shifted := LayoutInfo(Shift(info.state, d), info.align);
      DistanceToIndexSnap(shifted, info.state.visibleItems[k].index) == ResidualOf(info, info.state.visibleItems[k]) - d
  {
    var vis := info.state.visibleItems;
    var shifted := LayoutInfo(Shift(info.state, d), info.align);
    var moved := shifted.state.visibleItems;
    ShiftMovesEveryItem(info.state, d);
    assert moved[k] == vis[k].(offset := vis[k].offset - d);
    assert SnapOffsetOf(shifted, moved[k]) == SnapOffsetOf(info, vis[k]);
    assert DistinctIndices(moved) by {
      forall i, j | 0 <= i < j < |vis| ensures moved[i].index != moved[j].index {
        assert moved[i].index == vis[i].index && moved[j].index == vis[j].index;
      }
    }
  }

  /** What `performSnapBackIfNeeded` did: whether it pulled back, the
      layout afterwards and the scrolls it asked of the host. */
  datatype SnapBack = SnapBack(snapped: bool, amount: int, state: ListSnapshot, scrolled: seq<real>)

  /** `performSnapBackIfNeeded`: scrolls by the snap-back distance, once,
      exactly when that distance is non-zero, and reports whether it did. */
  function PerformSnapBackIfNeeded(align: SnapOffsets, host: ScrollHost, s: ListSnapshot,
                                   velocity: real, current: Item, target: int): (r: SnapBack)
    ensures r.amount == CalculateSnapBack(LayoutInfo(s, align), velocity, current, target)
    ensures r.snapped <==> r.amount != 0
    ensures r.snapped ==> r.scrolled == [r.amount as real] && r.state == host(s, r.amount as real).state
    ensures !r.snapped ==> r.scrolled == [] && r.state == s
  {
    var amount := CalculateSnapBack(LayoutInfo(s, align), velocity, current, target);
    if amount != 0 then SnapBack(true, amount, host(s, amount as real).state, [amount as real])
    else SnapBack(false, 0, s, [])
  }

  /** With a host that scrolls the snap-back distance rigidly, a snap-back
      leaves the item it measured against on its snap offset. */
  lemma RigidSnapBackLands(align: SnapOffsets, host: ScrollHost, s: ListSnapshot,
                           velocity: real, current: Item, target: int)
    requires WellFormed(s)
    requires velocity > 0.0 && current.index >= target ==> Visible(s, current.index)
    requires velocity < 0.0 && current.index < target ==> Visible(s, current.index + 1)
    requires var amount := CalculateSnapBack(LayoutInfo(s, align), velocity, current, target);
      host(s, amount as real).state == Shift(s, amount)
    ensures var r := PerformSnapBackIfNeeded(align, host, s, velocity, current, target);
      r.snapped ==>
        DistanceToIndexSnap(LayoutInfo(r.state, align), if velocity > 0.0 then current.index else current.index + 1) == 0
  {
    var r := PerformSnapBackIfNeeded(align, host, s, velocity, current, target);
    if r.snapped {
      WellFormedIndicesDistinct(s);
      SnapBackAligns(LayoutInfo(s, align), velocity, current, target);
    }
  }

  /** `canDecayBeyondCurrentItem`: a release fast enough to decay at all
      whose projected travel reaches the current item's snap offset (toward
      the start) or the next item's (toward the end). */
  function CanDecayBeyondCurrentItem(info: LayoutInfo, projection: real -> real, velocity: real, current: Item): (r: bool)
    ensures r ==> AbsReal(velocity) >= SlowVelocity
    ensures AbsReal(velocity) >= SlowVelocity && velocity < 0.0 ==>
      (r <==> projection(velocity) <= DistanceToIndexSnap(info, current.index) as real)
    ensures AbsReal(velocity) >= SlowVelocity && velocity >= 0.0 ==>
      (r <==> projection(velocity) >= DistanceToIndexSnap(info, current.index + 1) as real)
  {
    if AbsReal(velocity) < SlowVelocity then false
    else if velocity < 0.0 then projection(velocity) <= DistanceToIndexSnap(info, current.index) as real
    else projection(velocity) >= DistanceToIndexSnap(info, current.index + 1) as real
  }

  /** When the decay could not carry a release toward the end past the
      current item, the fling does not need it: the target is the current
      item or the next one, provided the next item is at most one estimated
      extent beyond the current one and the projection points forward. */
  lemma NoDecayMeansAdjacentTarget(info: LayoutInfo, projection: real -> real, velocity: real, maxFling: real)
    requires WellFormed(info.state) && CurrentItem(info).Some? && maxFling >= 0.0
    requires velocity >= SlowVelocity && projection(velocity) >= 0.0
    requires !CanDecayBeyondCurrentItem(info, projection, velocity, CurrentItem(info).value)
    requires var m := MeasuresOf(info, CurrentItem(info).value);
      m.perItem > 0.0 && m.toNext as real <= m.toCurrent as real + m.perItem
    ensures var target := DetermineTargetIndex(info, velocity, projection, maxFling);
      var current := CurrentItem(info).value.index;
      target.Success? && current <= target.value <= current + 1
  {
    var m := MeasuresOf(info, CurrentItem(info).value);
    CurrentResidual(info);
    ForwardTargetBetween(DetermineTargetIndex(info, velocity, projection, maxFling), m.current,
                         m, velocity, projection(velocity), maxFling, info.state.totalItemsCount);
  }

  /** The outcome of one frame callback: the layout afterwards, the
      snap-back scrolled (0 for none) and, when the callback cancels or the
      frame is the final one, why the phase stops. */
  datatype Tick = Tick(delta: real, state: ListSnapshot, snapBack: int, stop: Option<StopReason>)

  /** Whether the decay has reached the hand-over point: one item short of
      the target moving toward the end, on the target moving toward the
      start. */
  function AtSpringPoint(velocity: real, current: Item, target: int): (r: bool)
    ensures r ==> velocity != 0.0 && target - 1 <= current.index <= target
    ensures velocity > 0.0 ==> (r <==> current.index + 1 == target)
    ensures velocity < 0.0 ==> (r <==> current.index == target)
  {
    (velocity > 0.0 && current.index == target - 1) || (velocity < 0.0 && current.index == target)
  }

  /** How a frame that nothing else stops ends the phase: `Truncated` when
      the host consumed less than the frame asked for, `Finished` on the
      clock's final frame, `None` while the animation keeps running. */
  function Ending(truncated: bool, isLastFrame: bool): (r: Option<StopReason>)
    ensures r.None? <==> !truncated && !isLastFrame
    ensures r == Some(Truncated) <==> truncated
    ensures r == Some(Finished) <==> !truncated && isLastFrame
  {
    if truncated then Some(Truncated) else if isLastFrame then Some(Finished) else None
  }

  /** One frame callback of either animation. Both scroll by the frame's
      delta first and give up when no item is current. The decay callback
      checks the spring point and the snap-back only while still running
      (not truncated and not the final frame); the spring callback checks
      the snap-back on every frame, before the truncation. */
  function FrameTick(align: SnapOffsets, host: ScrollHost, phase: Phase, s: ListSnapshot,
                     lastValue: real, frame: Frame, target: int): (t: Tick)
    ensures t.delta == frame.value - lastValue
    ensures t.stop == Some(SnappedBack) <==> t.snapBack != 0
    ensures t.stop.None? ==> !frame.isLastFrame
    ensures t.stop != Some(ClockExhausted)
    ensures t.stop == Some(Finished) ==> frame.isLastFrame
    ensures t.stop == Some(Truncated) ==> AbsReal(t.delta - host(s, t.delta).consumed) > 0.5
    ensures t.stop == Some(ReachedSpringPoint) ==>
      && phase == Decay(true) && !frame.isLastFrame
      && var current := CurrentItem(LayoutInfo(host(s, t.delta).state, align));
         current.Some? && AtSpringPoint(frame.velocity, current.value, target)
    ensures t.snapBack != 0 ==>
      && var after := LayoutInfo(host(s, t.delta).state, align);
         && CurrentItem(after).Some?
         && t.snapBack == CalculateSnapBack(after, frame.velocity, CurrentItem(after).value, target)
         && t.state == host(after.state, t.snapBack as real).state
    ensures t.snapBack == 0 ==> t.state == host(s, t.delta).state
    ensures CurrentItem(LayoutInfo(host(s, t.delta).state, align)).None? ==> t.stop == Some(LostCurrentItem)
    ensures AbsReal(t.delta - host(s, t.delta).consumed) > 0.5 ==> t.stop.Some?
    ensures phase.Decay? && (frame.isLastFrame || AbsReal(t.delta - host(s, t.delta).consumed) > 0.5) ==>
      t.snapBack == 0 && t.stop != Some(ReachedSpringPoint)
  {
    var delta := frame.value - lastValue;
    var scrolled := host(s, delta);
    var after := LayoutInfo(scrolled.state, align);
    var truncated := AbsReal(delta - scrolled.consumed) > 0.5;
    var running := !frame.isLastFrame && !truncated;
    var ending := Ending(truncated, frame.isLastFrame);
    match CurrentItem(after)
    case None => Tick(delta, scrolled.state, 0, Some(LostCurrentItem))
    case Some(current) =>
      match phase
      case Decay(canSpringThenFling) =>
        if running && canSpringThenFling && AtSpringPoint(frame.velocity, current, target) then
          Tick(delta, scrolled.state, 0, Some(ReachedSpringPoint))
        else if running then
          var snap := PerformSnapBackIfNeeded(align, host, scrolled.state, frame.velocity, current, target);
          if snap.snapped then Tick(delta, snap.state, snap.amount, Some(SnappedBack))
          else Tick(delta, scrolled.state, 0, ending)
        else Tick(delta, scrolled.state, 0, ending)
      case Spring =>
        var snap := PerformSnapBackIfNeeded(align, host, scrolled.state, frame.velocity, current, target);
        if snap.snapped then Tick(delta, snap.state, snap.amount, Some(SnappedBack))
        else Tick(delta, scrolled.state, 0, ending)
  }

  /** The decay callback's rules, in the order it applies them once the
      current item is still there after the scroll: while running it hands
      over to the spring at the spring point (only when that is allowed),
      else snaps back on an overshoot, else goes on; a truncated or final
      frame stops the decay with neither. */
  lemma DecayTickRules(align: SnapOffsets, host: ScrollHost, canSpringThenFling: bool, s: ListSnapshot,
                       lastValue: real, frame: Frame, target: int)
    ensures var t := FrameTick(align, host, Decay(canSpringThenFling), s, lastValue, frame, target);
      var scrolled := host(s, t.delta);
      var after := LayoutInfo(scrolled.state, align);
      var running := !frame.isLastFrame && AbsReal(t.delta - scrolled.consumed) <= 0.5;
      CurrentItem(after).Some? ==>
        var current := CurrentItem(after).value;
        var springs := canSpringThenFling && AtSpringPoint(frame.velocity, current, target);
        var amount := CalculateSnapBack(after, frame.velocity, current, target);
        && (running && springs ==> t.stop == Some(ReachedSpringPoint))
        && (running && !springs && amount != 0 ==> t.stop == Some(SnappedBack) && t.snapBack == amount)
        && (running && !springs && amount == 0 ==> t.stop.None?)
        && (!running ==> t.stop == Ending(AbsReal(t.delta - scrolled.consumed) > 0.5, frame.isLastFrame))
  {
  }

  /** The spring callback's rules once the current item is still there after
      the scroll: snap back on an overshoot, on any frame; otherwise stop
      exactly when the frame is truncated or final. */
  lemma SpringTickRules(align: SnapOffsets, host: ScrollHost, s: ListSnapshot,
                        lastValue: real, frame: Frame, target: int)
    ensures var t := FrameTick(align, host, Spring, s, lastValue, frame, target);
      var scrolled := host(s, t.delta);
      var after := LayoutInfo(scrolled.state, align);
      CurrentItem(after).Some? ==>
        var amount := CalculateSnapBack(after, frame.velocity, CurrentItem(after).value, target);
        && (amount != 0 ==> t.stop == Some(SnappedBack) && t.snapBack == amount)
        && (amount == 0 ==> t.stop == Ending(AbsReal(t.delta - scrolled.consumed) > 0.5, frame.isLastFrame))
  {
  }

  /** What an animation phase did: where it left the list, the velocity and
      value of its last frame, the frame deltas it scrolled, the snap-back it
      scrolled (0 for none), why it stopped and how many frames it used. */
  datatype PhaseResult = PhaseResult(
    state: ListSnapshot,
    velocityLeft: real,
    lastValue: real,
    deltas: seq<real>,
    snapBack: int,
    reason: StopReason,
    ticks: nat)

  /** A frame callback with its phase fixed: from a layout, the value of
      the previous frame and a frame to the callback's outcome. */
  type Callback = (ListSnapshot, real, Frame) -> Tick

  function PhaseCallback(align: SnapOffsets, host: ScrollHost, phase: Phase, target: int): Callback {
    (x: ListSnapshot, lastValue: real, frame: Frame) => FrameTick(align, host, phase, x, lastValue, frame, target)
  }

  /** What the loop relies on from a callback: it scrolls by the frame's
      delta, reports a snap-back exactly when it scrolled one, never claims
      the clock ran dry, goes on only before the final frame and finishes
      only on it. */
  ghost predicate KeepsTickContract(tick: Callback) {
    forall x: ListSnapshot, lastValue: real, frame: Frame :: KeepsTickContractAt(tick, x, lastValue, frame)
  }

  ghost predicate KeepsTickContractAt(tick: Callback, x: ListSnapshot, lastValue: real, frame: Frame) {
    var t := tick(x, lastValue, frame);
    && t.delta == frame.value - lastValue
    && (t.stop == Some(SnappedBack) <==> t.snapBack != 0)
    && t.stop != Some(ClockExhausted)
    && (t.stop.None? ==> !frame.isLastFrame)
    && (t.stop == Some(Finished) ==> frame.isLastFrame)
  }

  /** The callback never hands over to the spring. */
  ghost predicate NeverSprings(tick: Callback) {
    forall x: ListSnapshot, lastValue: real, frame: Frame :: tick(x, lastValue, frame).stop != Some(ReachedSpringPoint)
  }

  lemma PhaseCallbackKeepsContract(align: SnapOffsets, host: ScrollHost, phase: Phase, target: int)
    ensures KeepsTickContract(PhaseCallback(align, host, phase, target))
    ensures phase != Decay(true) ==> NeverSprings(PhaseCallback(align, host, phase, target))
  {
    forall x: ListSnapshot, lastValue: real, frame: Frame
      ensures KeepsTickContractAt(PhaseCallback(align, host, phase, target), x, lastValue, frame)
    {
      var t := FrameTick(align, host, phase, x, lastValue, frame, target);
    }
    if phase != Decay(true) {
      forall x: ListSnapshot, lastValue: real, frame: Frame
        ensures PhaseCallback(align, host, phase, target)(x, lastValue, frame).stop != Some(ReachedSpringPoint)
      {
        var t := FrameTick(align, host, phase, x, lastValue, frame, target);
      }
    }
  }

  /** Feeds the clock's frames to a callback until one stops it. */
  function RunFrames(tick: Callback, s: ListSnapshot, frames: seq<Frame>, lastValue: real,
                     velocityLeft: real): (r: PhaseResult)
    ensures r.ticks <= |frames| && |r.deltas| == r.ticks
    ensures r.ticks == 0 <==> |frames| == 0
    ensures r.ticks == 0 ==> r == PhaseResult(s, velocityLeft, lastValue, [], 0, ClockExhausted, 0)
    ensures r.ticks > 0 ==>
      r.velocityLeft == frames[r.ticks - 1].velocity && r.lastValue == frames[r.ticks - 1].value
    ensures |frames| > 0 ==> r.deltas[0] == tick(s, lastValue, frames[0]).delta
    ensures KeepsTickContract(tick) ==>
      && (r.reason == SnappedBack <==> r.snapBack != 0)
      && (r.reason == ClockExhausted ==> r.ticks == |frames| && forall i | 0 <= i < |frames| :: !frames[i].isLastFrame)
      && (forall i | 0 <= i < r.ticks - 1 :: !frames[i].isLastFrame)
      && (r.reason == Finished ==> frames[r.ticks - 1].isLastFrame)
    ensures NeverSprings(tick) ==> r.reason != ReachedSpringPoint
    decreases |frames|
  {
    if |frames| == 0 then PhaseResult(s, velocityLeft, lastValue, [], 0, ClockExhausted, 0)
    else
      var t := tick(s, lastValue, frames[0]);
      assert KeepsTickContract(tick) ==> KeepsTickContractAt(tick, s, lastValue, frames[0]);
      if t.stop.Some? then
        PhaseResult(t.state, frames[0].velocity, frames[0].value, [t.delta], t.snapBack, t.stop.value, 1)
      else
        var rest := RunFrames(tick, t.state, frames[1..], frames[0].value, frames[0].velocity);
        assert forall i | 1 <= i < |frames| :: frames[1..][i - 1] == frames[i];
        PhaseResult(rest.state, rest.velocityLeft, rest.lastValue, [t.delta] + rest.deltas,
                    rest.snapBack, rest.reason, rest.ticks + 1)
  }

  /** Feeds the clock's frames to the phase's callback until one stops it. */
  function RunPhase(align: SnapOffsets, host: ScrollHost, phase: Phase, s: ListSnapshot,
                    frames: seq<Frame>, lastValue: real, velocityLeft: real, target: int): (r: PhaseResult)
    ensures r.ticks <= |frames| && |r.deltas| == r.ticks
    ensures r.ticks == 0 ==> r == PhaseResult(s, velocityLeft, lastValue, [], 0, ClockExhausted, 0)
    ensures r.ticks > 0 ==>
      r.velocityLeft == frames[r.ticks - 1].velocity && r.lastValue == frames[r.ticks - 1].value
    ensures r.reason == SnappedBack <==> r.snapBack != 0
    ensures r.reason == ClockExhausted ==> r.ticks == |frames| && forall i | 0 <= i < |frames| :: !frames[i].isLastFrame
    ensures r.reason != ClockExhausted ==> r.ticks > 0
    ensures forall i | 0 <= i < r.ticks - 1 :: !frames[i].isLastFrame
    ensures r.reason == Finished ==> r.ticks > 0 && frames[r.ticks - 1].isLastFrame
    ensures r.reason == ReachedSpringPoint ==> phase == Decay(true)
    ensures |frames| > 0 ==> r.ticks > 0 && r.deltas[0] == frames[0].value - lastValue
  {
    PhaseCallbackKeepsContract(align, host, phase, target);
    RunFrames(PhaseCallback(align, host, phase, target), s, frames, lastValue, velocityLeft)
  }

  /** A phase ends at the first frame whose callback cancels it: that frame
      is the only one used, and the phase reports its reason, layout and
      snap-back. A frame that does not cancel is followed by the rest of the
      clock. */
  lemma PhaseStopsAtFirstCancel(align: SnapOffsets, host: ScrollHost, phase: Phase, s: ListSnapshot,
                                frames: seq<Frame>, lastValue: real, velocityLeft: real, target: int)
    requires |frames| > 0
    ensures var t := FrameTick(align, host, phase, s, lastValue, frames[0], target);
      var r := RunPhase(align, host, phase, s, frames, lastValue, velocityLeft, target);
      && (t.stop.Some? ==>
            && r.ticks == 1 && r.reason == t.stop.value && r.state == t.state && r.snapBack == t.snapBack
            && r.lastValue == frames[0].value)
      && (t.stop.None? ==>
            var rest := RunPhase(align, host, phase, t.state, frames[1..], frames[0].value, frames[0].velocity, target);
            && r.ticks == rest.ticks + 1 && r.reason == rest.reason && r.state == rest.state
            && r.snapBack == rest.snapBack && r.lastValue == rest.lastValue && t.snapBack == 0)
  {
  }

  /** A host that takes none of what it is asked to scroll ends the phase at
      the first frame that moves by more than half a pixel: the callback
      cancels there, by truncation, by losing the current item or, in the
      spring, by snapping back first. */
  lemma StuckHostStopsAtFirstFrame(align: SnapOffsets, host: ScrollHost, phase: Phase, s: ListSnapshot,
                                   frames: seq<Frame>, lastValue: real, velocityLeft: real, target: int)
    requires |frames| > 0 && AbsReal(frames[0].value - lastValue) > 0.5
    requires host(s, frames[0].value - lastValue).consumed == 0.0
    ensures var r := RunPhase(align, host, phase, s, frames, lastValue, velocityLeft, target);
      && r.ticks == 1
      && (r.reason == Truncated || r.reason == LostCurrentItem || r.reason == SnappedBack)
      && (phase.Decay? ==> r.reason == Truncated || r.reason == LostCurrentItem)
  {
    var t := FrameTick(align, host, phase, s, lastValue, frames[0], target);
    assert AbsReal(t.delta - host(s, t.delta).consumed) > 0.5;
  }

  function Sum(xs: seq<real>): real
    decreases |xs|
  {
    if |xs| == 0 then 0.0 else xs[0] + Sum(xs[1..])
  }

  /** The frame deltas a phase scrolls add up to the distance its animation
      travelled: the value of its last frame less the value it started
      from. */
  lemma {:induction false} PhaseDeltasTelescope(align: SnapOffsets, host: ScrollHost, phase: Phase, s: ListSnapshot,
                                                frames: seq<Frame>, lastValue: real, velocityLeft: real, target: int)
    ensures var r := RunPhase(align, host, phase, s, frames, lastValue, velocityLeft, target);
      Sum(r.deltas) == r.lastValue - lastValue
    decreases |frames|
  {
    var r := RunPhase(align, host, phase, s, frames, lastValue, velocityLeft, target);
    if |frames| > 0 {
      var t := FrameTick(align, host, phase, s, lastValue, frames[0], target);
      if t.stop.Some? {
        assert r.deltas == [t.delta];
        assert Sum(r.deltas) == t.delta + Sum([]);
      } else {
        var rest := RunPhase(align, host, phase, t.state, frames[1..], frames[0].value, frames[0].velocity, target);
        PhaseDeltasTelescope(align, host, phase, t.state, frames[1..], frames[0].value, frames[0].velocity, target);
        assert r.deltas == [t.delta] + rest.deltas;
        assert ([t.delta] + rest.deltas)[1..] == rest.deltas;
      }
    }
  }

  /** A clock whose final frame is marked as such always ends the phase on
      a frame, never by running dry. */
  lemma MarkedClockEndsPhase(align: SnapOffsets, host: ScrollHost, phase: Phase, s: ListSnapshot,
                             frames: seq<Frame>, lastValue: real, velocityLeft: real, target: int)
    requires |frames| > 0 && frames[|frames| - 1].isLastFrame
    ensures var r := RunPhase(align, host, phase, s, frames, lastValue, velocityLeft, target);
      r.reason != ClockExhausted && 0 < r.ticks
  {
  }

  /** The decay animation of `performDecayFling`: from value 0 at the
      release velocity, allowed to hand over to the spring only when the
      target is two or more items from the item the fling started on. */
  function DecayPhase(b: Behavior, host: ScrollHost, s: ListSnapshot, initial: Item, target: int,
                      velocity: real): (r: PhaseResult)
    ensures r.reason == ReachedSpringPoint ==> Abs(target - initial.index) >= 2
    ensures var frames := b.physics.decayFrames(velocity);
      Abs(target - initial.index) >= 2 && |frames| > 0 ==>
        var scrolled := host(s, frames[0].value);
        var after := LayoutInfo(scrolled.state, b.align);
        !frames[0].isLastFrame && AbsReal(frames[0].value - scrolled.consumed) <= 0.5 &&
        CurrentItem(after).Some? && AtSpringPoint(frames[0].velocity, CurrentItem(after).value, target) ==>
          r.ticks == 1 && r.reason == ReachedSpringPoint
    ensures r.ticks <= |b.physics.decayFrames(velocity)|
    ensures r.ticks > 0 ==> r.velocityLeft == b.physics.decayFrames(velocity)[r.ticks - 1].velocity
    ensures r.ticks == 0 ==> r.velocityLeft == velocity && r.state == s
    ensures var frames := b.physics.decayFrames(velocity);
      && (|frames| > 0 ==> r.ticks > 0)
      && (r.reason == ClockExhausted ==> r.ticks == |frames| && forall i | 0 <= i < |frames| :: !frames[i].isLastFrame)
      && (r.reason == Finished ==> r.ticks > 0 && frames[r.ticks - 1].isLastFrame)
      && (forall i | 0 <= i < r.ticks - 1 :: !frames[i].isLastFrame)
  {
    var frames := b.physics.decayFrames(velocity);
    var r := RunPhase(b.align, host, Decay(Abs(target - initial.index) >= 2), s, frames, 0.0, velocity, target);
    if Abs(target - initial.index) >= 2 && |frames| > 0 then
      PhaseStopsAtFirstCancel(b.align, host, Decay(true), s, frames, 0.0, velocity, target);
      DecayTickRules(b.align, host, true, s, 0.0, frames[0], target);
      r
    else r
  }

  /** `performDecayFling`: when the list already rests on the target nothing
      animates and the velocity goes through the edge check; otherwise the
      decay runs, and the list is where the decay left it with the velocity
      of the last frame it used (the release velocity if the clock gives
      none). */
  function PerformDecayFling(b: Behavior, host: ScrollHost, s: ListSnapshot, initial: Item, target: int,
                             velocity: real): (r: Motion)
    ensures var info := LayoutInfo(s, b.align);
      initial.index == target && DistanceToIndexSnap(info, initial.index) == 0 ==>
        r == Motion(s, ConsumeVelocityIfNotAtScrollEdge(s, velocity))
    ensures var frames := b.physics.decayFrames(velocity);
      !(initial.index == target && DistanceToIndexSnap(LayoutInfo(s, b.align), initial.index) == 0) ==>
        (r.velocityLeft == velocity && r.state == s) || exists i | 0 <= i < |frames| :: r.velocityLeft == frames[i].velocity
    ensures !(initial.index == target && DistanceToIndexSnap(LayoutInfo(s, b.align), initial.index) == 0) ==>
      var run := DecayPhase(b, host, s, initial, target, velocity);
      r == Motion(run.state, run.velocityLeft)
  {
    if initial.index == target && DistanceToIndexSnap(LayoutInfo(s, b.align), initial.index) == 0 then
      Motion(s, ConsumeVelocityIfNotAtScrollEdge(s, velocity))
    else
      var run := DecayPhase(b, host, s, initial, target, velocity);
      Motion(run.state, run.velocityLeft)
  }

  /** The spring's start velocity: the velocity left over only when it
      already heads toward the target (toward the end for a target after the
      current item, toward the start for one at or before it), else 0. */
  function SpringStartVelocity(current: int, target: int, velocity: real): (r: real)
    ensures r == velocity || r == 0.0
    ensures r > 0.0 ==> target > current
    ensures r < 0.0 ==> target <= current
    ensures (target > current && velocity > 0.0) || (target <= current && velocity < 0.0) ==> r == velocity
  {
    if target > current && velocity > 0.0 then velocity
    else if target <= current && velocity < 0.0 then velocity
    else 0.0
  }

  /** The spring animation of `performSpringFling`: from value 0 at the
      start velocity to the target's distance from its snap offset, measured
      when the spring starts. */
  function SpringPhase(b: Behavior, host: ScrollHost, s: ListSnapshot, initial: Item, target: int,
                       velocity: real): (r: PhaseResult)
    ensures var v := SpringStartVelocity(initial.index, target, velocity);
      var frames := b.physics.springFrames(v, DistanceToIndexSnap(LayoutInfo(s, b.align), target) as real);
      && r.ticks <= |frames|
      && (r.ticks > 0 ==> r.velocityLeft == frames[r.ticks - 1].velocity && r.lastValue == frames[r.ticks - 1].value)
      && (r.ticks == 0 ==> r.velocityLeft == v && r.state == s && r.lastValue == 0.0)
      && (r.reason == Finished ==> r.ticks > 0 && frames[r.ticks - 1].isLastFrame && r.snapBack == 0)
      && (|frames| > 0 ==> r.ticks > 0)
      && (r.reason == ClockExhausted ==> r.ticks == |frames| && forall i | 0 <= i < |frames| :: !frames[i].isLastFrame)
      && (forall i | 0 <= i < r.ticks - 1 :: !frames[i].isLastFrame)
    ensures r.reason != ReachedSpringPoint
  {
    var v := SpringStartVelocity(initial.index, target, velocity);
    RunPhase(b.align, host, Spring, s,
             b.physics.springFrames(v, DistanceToIndexSnap(LayoutInfo(s, b.align), target) as real),
             0.0, v, target)
  }

  /** `performSpringFling`: the list is where the spring left it, with the
      velocity of the last frame the spring used. */
  function PerformSpringFling(b: Behavior, host: ScrollHost, s: ListSnapshot, initial: Item, target: int,
                              velocity: real): (r: Motion)
    ensures var v := SpringStartVelocity(initial.index, target, velocity);
      var frames := b.physics.springFrames(v, DistanceToIndexSnap(LayoutInfo(s, b.align), target) as real);
      (r.velocityLeft == v && r.state == s) || exists i | 0 <= i < |frames| :: r.velocityLeft == frames[i].velocity
    ensures var run := SpringPhase(b, host, s, initial, target, velocity);
      r == Motion(run.state, run.velocityLeft)
  {
    var run := SpringPhase(b, host, s, initial, target, velocity);
    Motion(run.state, run.velocityLeft)
  }

  /** A host that moves the content rigidly by whole pixels and takes all
      it is asked for. */
  ghost predicate Rigid(host: ScrollHost) {
    forall x: ListSnapshot, d: real :: RigidAt(host, x, d)
  }

  /** The host moves `x` rigidly by the whole pixels of `d` and takes all
      of `d`. */
  ghost predicate RigidAt(host: ScrollHost, x: ListSnapshot, d: real) {
    host(x, d) == Scrolled(Shift(x, d.Floor), d)
  }

  /** The clock's values are the whole pixel counts `pixels`. */
  predicate OnPixels(frames: seq<Frame>, pixels: seq<int>) {
    |pixels| == |frames| && forall i | 0 <= i < |frames| :: frames[i].value == pixels[i] as real
  }

  lemma ShiftTwice(s: ListSnapshot, a: int, b: int)
    ensures Shift(Shift(s, a), b) == Shift(s, a + b)
  {
    var l := Shift(Shift(s, a), b).visibleItems;
    var m := Shift(s, a + b).visibleItems;
    ShiftMovesEveryItem(s, a);
    ShiftMovesEveryItem(Shift(s, a), b);
    ShiftMovesEveryItem(s, a + b);
    assert |l| == |m|;
    forall k | 0 <= k < |l| ensures l[k] == m[k] {
      assert Shift(s, a).visibleItems[k] == s.visibleItems[k].(offset := s.visibleItems[k].offset - a);
    }
  }

  /** One scroll of a rigid host, read off `Rigid` for a single snapshot and
      delta. */
  lemma RigidScroll(host: ScrollHost, x: ListSnapshot, d: real)
    requires Rigid(host)
    ensures host(x, d).state == Shift(x, d.Floor) && host(x, d).consumed == d
  {
    assert RigidAt(host, x, d);
  }

  /** A rigid scroll by a frame's delta, followed by a snap-back that is
      skipped when it is 0, moves the list by the delta's whole pixels plus
      the snap-back. */
  lemma RigidScrolls(host: ScrollHost, s: ListSnapshot, delta: real, snapBack: int, state: ListSnapshot)
    requires Rigid(host)
    requires snapBack != 0 ==> state == host(host(s, delta).state, snapBack as real).state
    requires snapBack == 0 ==> state == host(s, delta).state
    ensures state == Shift(s, delta.Floor + snapBack)
  {
    RigidScroll(host, s, delta);
    if snapBack != 0 {
      RigidScroll(host, Shift(s, delta.Floor), snapBack as real);
      ShiftTwice(s, delta.Floor, snapBack);
    }
  }

  /** The callback scrolls through `host`: by the frame's delta, then by its
      snap-back when that is not 0, and it snaps back only when it stops. */
  ghost predicate ScrollsThrough(tick: Callback, host: ScrollHost) {
    forall x: ListSnapshot, lastValue: real, frame: Frame :: ScrollsThroughAt(tick, host, x, lastValue, frame)
  }

  ghost predicate ScrollsThroughAt(tick: Callback, host: ScrollHost, x: ListSnapshot, lastValue: real, frame: Frame) {
    var t := tick(x, lastValue, frame);
    && t.delta == frame.value - lastValue
    && (t.snapBack != 0 ==> t.state == host(host(x, t.delta).state, t.snapBack as real).state)
    && (t.snapBack == 0 ==> t.state == host(x, t.delta).state)
    && (t.stop.None? ==> t.snapBack == 0)
  }

  lemma PhaseCallbackScrollsThrough(align: SnapOffsets, host: ScrollHost, phase: Phase, target: int)
    ensures ScrollsThrough(PhaseCallback(align, host, phase, target), host)
  {
    forall x: ListSnapshot, lastValue: real, frame: Frame
      ensures ScrollsThroughAt(PhaseCallback(align, host, phase, target), host, x, lastValue, frame)
    {
      var t := FrameTick(align, host, phase, x, lastValue, frame, target);
    }
  }

  /** Through a rigid host and a clock of whole-pixel values, any callback
      that scrolls through the host moves the list by exactly the distance
      its animation travelled plus the snap-back it scrolled. */
  lemma {:induction false} RigidFramesShift(tick: Callback, host: ScrollHost, s: ListSnapshot, frames: seq<Frame>,
                                            pixels: seq<int>, start: int, velocityLeft: real)
    requires Rigid(host) && ScrollsThrough(tick, host) && OnPixels(frames, pixels)
    ensures var r := RunFrames(tick, s, frames, start as real, velocityLeft);
      r.ticks > 0 ==> r.state == Shift(s, pixels[r.ticks - 1] - start + r.snapBack)
    decreases |frames|
  {
    if |frames| > 0 {
      var t := tick(s, start as real, frames[0]);
      assert ScrollsThroughAt(tick, host, s, start as real, frames[0]);
      assert (frames[0].value - start as real).Floor == pixels[0] - start;
      RigidScrolls(host, s, t.delta, t.snapBack, t.state);
      if t.stop.None? {
        OnPixelsTail(frames, pixels);
        RigidFramesShift(tick, host, t.state, frames[1..], pixels[1..], pixels[0], frames[0].velocity);
        var rest := RunFrames(tick, t.state, frames[1..], frames[0].value, frames[0].velocity);
        if rest.ticks > 0 {
          assert pixels[1..][rest.ticks - 1] == pixels[rest.ticks];
          ShiftTwice(s, pixels[0] - start, pixels[rest.ticks] - pixels[0] + rest.snapBack);
        }
      }
    }
  }

  /** Through a rigid host, a clock of whole-pixel values from 0 whose
      final frame is at `goal`, and a callback that finishes only on the
      final frame, a run that finishes without a snap-back moves the list
      by exactly `goal`. */
  lemma RigidFramesFinish(tick: Callback, host: ScrollHost, s: ListSnapshot, frames: seq<Frame>,
                          pixels: seq<int>, goal: int, velocityLeft: real)
    requires Rigid(host) && ScrollsThrough(tick, host) && KeepsTickContract(tick) && OnPixels(frames, pixels)
    requires forall i | 0 <= i < |frames| && frames[i].isLastFrame :: pixels[i] == goal
    ensures var r := RunFrames(tick, s, frames, 0.0, velocityLeft);
      r.reason == Finished && r.snapBack == 0 ==> r.state == Shift(s, goal)
  {
    RigidFramesShift(tick, host, s, frames, pixels, 0, velocityLeft);
  }

  /** `RigidFramesShift` for a clock that starts from value 0. */
  lemma RigidFramesFromZero(tick: Callback, host: ScrollHost, s: ListSnapshot, frames: seq<Frame>,
                            pixels: seq<int>, velocityLeft: real)
    requires Rigid(host) && ScrollsThrough(tick, host) && OnPixels(frames, pixels)
    ensures var r := RunFrames(tick, s, frames, 0.0, velocityLeft);
      r.ticks > 0 ==> r.state == Shift(s, pixels[r.ticks - 1] + r.snapBack)
  {
    RigidFramesShift(tick, host, s, frames, pixels, 0, velocityLeft);
  }

  lemma OnPixelsTail(frames: seq<Frame>, pixels: seq<int>)
    requires |frames| > 0 && OnPixels(frames, pixels)
    ensures OnPixels(frames[1..], pixels[1..])
  {
    forall i | 0 <= i < |frames[1..]| ensures frames[1..][i].value == pixels[1..][i] as real {
      assert frames[1..][i] == frames[i + 1] && pixels[1..][i] == pixels[i + 1];
    }
  }

  /** A decay travels: through a rigid host and a decay clock whose values
      are the whole pixels `pixels`, a decay that used any frames moves the
      list by exactly the value of the last frame it used plus the snap-back
      it scrolled. */
  lemma RigidDecayShift(b: Behavior, host: ScrollHost, s: ListSnapshot, initial: Item, target: int, velocity: real,
                        pixels: seq<int>)
    requires Rigid(host) && OnPixels(b.physics.decayFrames(velocity), pixels)
    requires !(initial.index == target && DistanceToIndexSnap(LayoutInfo(s, b.align), initial.index) == 0)
    ensures var run := DecayPhase(b, host, s, initial, target, velocity);
      run.ticks > 0 ==>
        PerformDecayFling(b, host, s, initial, target, velocity).state == Shift(s, pixels[run.ticks - 1] + run.snapBack)
  {
    var phase := Decay(Abs(target - initial.index) >= 2);
    PhaseCallbackScrollsThrough(b.align, host, phase, target);
    RigidFramesEnd(PhaseCallback(b.align, host, phase, target), host, s, b.physics.decayFrames(velocity), pixels,
                   velocity, DecayPhase(b, host, s, initial, target, velocity),
                   PerformDecayFling(b, host, s, initial, target, velocity).state);
  }

  /** The end of a rigid run from rest, stated for a result and a state that
      are known to be that run and its final state. It exists only to keep
      the caller's proof context small. */
  lemma RigidFramesEnd(tick: Callback, host: ScrollHost, s: ListSnapshot, frames: seq<Frame>, pixels: seq<int>,
                       velocityLeft: real, run: PhaseResult, state: ListSnapshot)
    requires Rigid(host) && ScrollsThrough(tick, host) && OnPixels(frames, pixels)
    requires run == RunFrames(tick, s, frames, 0.0, velocityLeft) && state == run.state
    ensures run.ticks > 0 ==> state == Shift(s, pixels[run.ticks - 1] + run.snapBack)
  {
    RigidFramesFromZero(tick, host, s, frames, pixels, velocityLeft);
  }

  /** Scrolling rigidly by a visible item's distance from its snap offset
      puts it on its snap offset. */
  lemma ShiftByDistanceLands(info: LayoutInfo, index: int)
    requires DistinctIndices(info.state.visibleItems) && Visible(info.state, index)
    ensures DistanceToIndexSnap(LayoutInfo(Shift(info.state, DistanceToIndexSnap(info, index)), info.align), index) == 0
  {
    var k :| 0 <= k < |info.state.visibleItems| && info.state.visibleItems[k].index == index;
    ShiftedResidual(info, DistanceToIndexSnap(info, index), k);
  }

  /** Through a rigid host, with a clock whose values are the whole pixels
      `pixels` and whose final frame reaches the spring's target value, a
      spring that runs to its final frame moves the list by exactly the
      target's distance from its snap offset. */
  lemma RigidSpringShift(b: Behavior, host: ScrollHost, s: ListSnapshot, initial: Item, target: int, velocity: real,
                         pixels: seq<int>)
    requires Rigid(host)
    requires var v := SpringStartVelocity(initial.index, target, velocity);
      var goal := DistanceToIndexSnap(LayoutInfo(s, b.align), target);
      var frames := b.physics.springFrames(v, goal as real);
      && OnPixels(frames, pixels)
      && forall i | 0 <= i < |frames| && frames[i].isLastFrame :: pixels[i] == goal
    requires SpringPhase(b, host, s, initial, target, velocity).reason == Finished
    ensures PerformSpringFling(b, host, s, initial, target, velocity).state
         == Shift(s, DistanceToIndexSnap(LayoutInfo(s, b.align), target))
  {
    var v := SpringStartVelocity(initial.index, target, velocity);
    var goal := DistanceToIndexSnap(LayoutInfo(s, b.align), target);
    var frames := b.physics.springFrames(v, goal as real);
    PhaseCallbackScrollsThrough(b.align, host, Spring, target);
    PhaseCallbackKeepsContract(b.align, host, Spring, target);
    RigidFramesFinish(PhaseCallback(b.align, host, Spring, target), host, s, frames, pixels, goal, v);
  }

  /** A spring lands: under the conditions of `RigidSpringShift`, a target
      visible when the spring starts ends on its snap offset. */
  lemma RigidSpringLands(b: Behavior, host: ScrollHost, s: ListSnapshot, initial: Item, target: int, velocity: real,
                         pixels: seq<int>)
    requires Rigid(host) && WellFormed(s) && Visible(s, target)
    requires var v := SpringStartVelocity(initial.index, target, velocity);
      var goal := DistanceToIndexSnap(LayoutInfo(s, b.align), target);
      var frames := b.physics.springFrames(v, goal as real);
      && OnPixels(frames, pixels)
      && forall i | 0 <= i < |frames| && frames[i].isLastFrame :: pixels[i] == goal
    requires SpringPhase(b, host, s, initial, target, velocity).reason == Finished
    ensures DistanceToIndexSnap(LayoutInfo(PerformSpringFling(b, host, s, initial, target, velocity).state, b.align), target) == 0
  {
    RigidSpringShift(b, host, s, initial, target, velocity, pixels);
    WellFormedIndicesDistinct(s);
    ShiftByDistanceLands(LayoutInfo(s, b.align), target);
  }

  /** Whether the list rests with `index` current and exactly on its snap
      offset. */
  predicate RestsOn(info: LayoutInfo, current: Item, index: int) {
    current.index == index && DistanceToIndexSnap(info, index) == 0
  }

  /** `flingToIndex`: decay first when the projected travel gets past the
      current item, then spring unless the list already rests on the target,
      and hand back only a velocity that points at a blocked edge. Without a
      current item the release velocity is handed back unchanged. */
  function FlingToIndex(b: Behavior, host: ScrollHost, s: ListSnapshot, index: int, velocity: real): (r: Motion)
    ensures CurrentItem(LayoutInfo(s, b.align)).None? ==> r == Motion(s, velocity)
    ensures r.velocityLeft == velocity || r.velocityLeft == 0.0 || PointsAtBlockedEdge(r.state, r.velocityLeft)
    ensures CurrentItem(LayoutInfo(s, b.align)).Some? && RestsOn(LayoutInfo(s, b.align), CurrentItem(LayoutInfo(s, b.align)).value, index) ==>
      r == Motion(s, ConsumeVelocityIfNotAtScrollEdge(s, velocity))
    ensures var info := LayoutInfo(s, b.align);
      CurrentItem(info).Some? && !RestsOn(info, CurrentItem(info).value, index) &&
      !CanDecayBeyondCurrentItem(info, b.physics.decayTarget, velocity, CurrentItem(info).value) ==>
        var sprung := PerformSpringFling(b, host, s, CurrentItem(info).value, index, velocity);
        r == Motion(sprung.state, ConsumeVelocityIfNotAtScrollEdge(sprung.state, sprung.velocityLeft))
    ensures var info := LayoutInfo(s, b.align);
      CurrentItem(info).Some? && !RestsOn(info, CurrentItem(info).value, index) &&
      CanDecayBeyondCurrentItem(info, b.physics.decayTarget, velocity, CurrentItem(info).value) ==>
        var decayed := PerformDecayFling(b, host, s, CurrentItem(info).value, index, velocity);
        var after := LayoutInfo(decayed.state, b.align);
        && (CurrentItem(after).None? ==> r == Motion(decayed.state, velocity))
        && (CurrentItem(after).Some? && RestsOn(after, CurrentItem(after).value, index) ==>
              r == Motion(decayed.state, ConsumeVelocityIfNotAtScrollEdge(decayed.state, decayed.velocityLeft)))
        && (CurrentItem(after).Some? && !RestsOn(after, CurrentItem(after).value, index) ==>
              var sprung := PerformSpringFling(b, host, decayed.state, CurrentItem(after).value, index, decayed.velocityLeft);
              r == Motion(sprung.state, ConsumeVelocityIfNotAtScrollEdge(sprung.state, sprung.velocityLeft)))
  {
    var info := LayoutInfo(s, b.align);
    match CurrentItem(info)
    case None => Motion(s, velocity)
    case Some(initial) =>
      if initial.index == index && DistanceToIndexSnap(info, initial.index) == 0 then
        Motion(s, ConsumeVelocityIfNotAtScrollEdge(s, velocity))
      else
        var decayed :=
          if CanDecayBeyondCurrentItem(info, b.physics.decayTarget, velocity, initial) then
            PerformDecayFling(b, host, s, initial, index, velocity)
          else Motion(s, velocity);
        var afterDecay := LayoutInfo(decayed.state, b.align);
        match CurrentItem(afterDecay)
        case None => Motion(decayed.state, velocity)
        case Some(current) =>
          var sprung :=
            if current.index != index || DistanceToIndexSnap(afterDecay, index) != 0 then
              PerformSpringFling(b, host, decayed.state, current, index, decayed.velocityLeft)
            else decayed;
          Motion(sprung.state, ConsumeVelocityIfNotAtScrollEdge(sprung.state, sprung.velocityLeft))
  }

  /** A fling too slow to decay past the current item lands: through a
      rigid host, with a spring clock as in `RigidSpringLands` that runs to
      its final frame, a target visible at the release ends on its snap
      offset. */
  lemma RigidFlingWithoutDecayLands(b: Behavior, host: ScrollHost, s: ListSnapshot, index: int, velocity: real,
                                    pixels: seq<int>)
    requires Rigid(host) && WellFormed(s) && Visible(s, index)
    requires CurrentItem(LayoutInfo(s, b.align)).Some?
    requires var initial := CurrentItem(LayoutInfo(s, b.align)).value;
      !CanDecayBeyondCurrentItem(LayoutInfo(s, b.align), b.physics.decayTarget, velocity, initial)
    requires var initial := CurrentItem(LayoutInfo(s, b.align)).value;
      var v := SpringStartVelocity(initial.index, index, velocity);
      var goal := DistanceToIndexSnap(LayoutInfo(s, b.align), index);
      var frames := b.physics.springFrames(v, goal as real);
      && OnPixels(frames, pixels)
      && forall i | 0 <= i < |frames| && frames[i].isLastFrame :: pixels[i] == goal
    requires SpringPhase(b, host, s, CurrentItem(LayoutInfo(s, b.align)).value, index, velocity).reason == Finished
    ensures DistanceToIndexSnap(LayoutInfo(FlingToIndex(b, host, s, index, velocity).state, b.align), index) == 0
  {
    var initial := CurrentItem(LayoutInfo(s, b.align)).value;
    if !RestsOn(LayoutInfo(s, b.align), initial, index) {
      RigidSpringLands(b, host, s, initial, index, velocity, pixels);
    }
  }

  /** A fling that decays first lands too: through a rigid host, when the
      decay leaves a well-formed layout with a current item and the target in
      view, and the spring from there runs to its final frame on a clock as
      in `RigidSpringLands`, the target ends on its snap offset. */
  lemma RigidFlingAfterDecayLands(b: Behavior, host: ScrollHost, s: ListSnapshot, index: int, velocity: real,
                                  pixels: seq<int>)
    requires Rigid(host) && CurrentItem(LayoutInfo(s, b.align)).Some?
    requires var initial := CurrentItem(LayoutInfo(s, b.align)).value;
      CanDecayBeyondCurrentItem(LayoutInfo(s, b.align), b.physics.decayTarget, velocity, initial)
    requires var d := PerformDecayFling(b, host, s, CurrentItem(LayoutInfo(s, b.align)).value, index, velocity);
      var after := LayoutInfo(d.state, b.align);
      && WellFormed(d.state) && Visible(d.state, index) && CurrentItem(after).Some?
      && var v := SpringStartVelocity(CurrentItem(after).value.index, index, d.velocityLeft);
         var goal := DistanceToIndexSnap(after, index);
         var frames := b.physics.springFrames(v, goal as real);
         && OnPixels(frames, pixels)
         && (forall i | 0 <= i < |frames| && frames[i].isLastFrame :: pixels[i] == goal)
         && SpringPhase(b, host, d.state, CurrentItem(after).value, index, d.velocityLeft).reason == Finished
    ensures DistanceToIndexSnap(LayoutInfo(FlingToIndex(b, host, s, index, velocity).state, b.align), index) == 0
  {
    var info := LayoutInfo(s, b.align);
    var initial := CurrentItem(info).value;
    if !RestsOn(info, initial, index) {
      var d := PerformDecayFling(b, host, s, initial, index, velocity);
      var after := LayoutInfo(d.state, b.align);
      if !RestsOn(after, CurrentItem(after).value, index) {
        RigidSpringLands(b, host, d.state, CurrentItem(after).value, index, d.velocityLeft, pixels);
      }
    }
  }

  /** The index handed to `snapIndex` as the fling's start: the current item,
      or the one after it for a release toward the start. */
  function StartIndex(initial: Item, velocity: real): (r: int)
    ensures initial.index <= r <= initial.index + 1
    ensures r == initial.index + 1 <==> velocity < 0.0
  {
    if velocity < 0.0 then initial.index + 1 else initial.index
  }

  /** `performFling`: a list blocked at either edge does not fling and hands
      the velocity back; a non-positive `maximumFlingDistance` and a
      `snapIndex` result outside the list are errors; without a current item
      the velocity is handed back; otherwise the list flings to the chosen
      index. */
  function PerformFling(b: Behavior, host: ScrollHost, s: ListSnapshot, velocity: real): (r: Result<Motion, FlingError>)
    ensures !CanScrollTowardsStart(s) || !CanScrollTowardsEnd(s) ==> r == Success(Motion(s, velocity))
    ensures r == Failure(MaxFlingDistanceNotPositive) <==>
      CanScrollTowardsStart(s) && CanScrollTowardsEnd(s) && !(b.maximumFlingDistance(LayoutInfo(s, b.align)) > 0.0)
    ensures var info := LayoutInfo(s, b.align);
      CanScrollTowardsStart(s) && CanScrollTowardsEnd(s) && b.maximumFlingDistance(info) > 0.0 && CurrentItem(info).None? ==>
        r == Success(Motion(s, velocity))
    ensures r.Success? ==>
      r.value.velocityLeft == velocity || r.value.velocityLeft == 0.0 || PointsAtBlockedEdge(r.value.state, r.value.velocityLeft)
    ensures r == Failure(TargetIndexOutOfRange) ==>
      var info := LayoutInfo(s, b.align);
      var t := DetermineTargetIndex(info, velocity, b.physics.decayTarget, b.maximumFlingDistance(info));
      && CurrentItem(info).Some? && t.Success?
      && var index := b.snapIndex(info, StartIndex(CurrentItem(info).value, velocity), t.value);
         !(0 <= index < s.totalItemsCount)
    ensures var info := LayoutInfo(s, b.align);
      CanScrollTowardsStart(s) && CanScrollTowardsEnd(s) && b.maximumFlingDistance(info) > 0.0 && CurrentItem(info).Some? ==>
        var t := DetermineTargetIndex(info, velocity, b.physics.decayTarget, b.maximumFlingDistance(info));
        && (t.Failure? ==> r == Failure(t.error))
        && (t.Success? ==>
              var index := b.snapIndex(info, StartIndex(CurrentItem(info).value, velocity), t.value);
              && (r == Failure(TargetIndexOutOfRange) <==> !(0 <= index < s.totalItemsCount))
              && (0 <= index < s.totalItemsCount ==> r == Success(FlingToIndex(b, host, s, index, velocity))))
  {
    var info := LayoutInfo(s, b.align);
    if !CanScrollTowardsStart(s) || !CanScrollTowardsEnd(s) then Success(Motion(s, velocity))
    else
      var maxFling := b.maximumFlingDistance(info);
      if !(maxFling > 0.0) then Failure(MaxFlingDistanceNotPositive)
      else
        match CurrentItem(info)
        case None => Success(Motion(s, velocity))
        case Some(initial) =>
          match DetermineTargetIndex(info, velocity, b.physics.decayTarget, maxFling)
          case Failure(e) => Failure(e)
          case Success(target) =>
            var index := b.snapIndex(info, StartIndex(initial, velocity), target);
            if !(0 <= index < s.totalItemsCount) then Failure(TargetIndexOutOfRange)
            else Success(FlingToIndex(b, host, s, index, velocity))
  }

  /** The default `snapIndex`: the target as `determineTargetIndex` chose it. */
  ghost predicate UsesDefaultSnapIndex(b: Behavior) {
    forall info, start, target :: b.snapIndex(info, start, target) == target
  }

  /** With the default `snapIndex` and a positive fling bound, a fling on a
      well-formed layout never raises: the chosen target is always an item of
      the list. */
  lemma DefaultFlingNeverFails(b: Behavior, host: ScrollHost, s: ListSnapshot, velocity: real)
    requires WellFormed(s) && UsesDefaultSnapIndex(b)
    requires b.maximumFlingDistance(LayoutInfo(s, b.align)) > 0.0
    ensures PerformFling(b, host, s, velocity).Success?
  {
    var info := LayoutInfo(s, b.align);
    if CanScrollTowardsStart(s) && CanScrollTowardsEnd(s) && CurrentItem(info).Some? {
      TargetAlwaysInRange(info, velocity, b.physics.decayTarget, b.maximumFlingDistance(info));
    }
  }
}

=== FILE: kotlin_math.dfy ===
/** The few Kotlin numeric operations whose semantics differ from Dafny's:
    `Int / Int` truncates toward zero, `roundToInt` rounds half-way cases
    toward positive infinity and saturates at the `Int` bounds, `coerceIn`
    throws on an empty range, and `Int + Int` wraps around at 32 bits. */
module KotlinMath {
  import opened Wrappers

  const IntMin: int := -0x8000_0000
  const IntMax: int := 0x7fff_ffff

  function Abs(x: int): int { if x < 0 then -x else x }

  function AbsReal(x: real): real { if x < 0.0 then -x else x }

  /** Distance between two integers. */
  function Gap(a: int, b: int): int { Abs(a - b) }

  /** Distance between two reals. */
  function GapReal(a: real, b: real): real { AbsReal(a - b) }

  function MinReal(a: real, b: real): real { if a <= b then a else b }

  function MaxReal(a: real, b: real): real { if a >= b then a else b }

  /** Kotlin `a / b` on `Int`: the quotient is truncated toward zero, so the
      remainder takes the sign of the dividend (Dafny's `/` is Euclidean). */
  function TruncDiv(a: int, b: int): (q: int)
    requires b != 0
    ensures a >= 0 ==> 0 <= a - q * b < Abs(b)
    ensures a < 0 ==> -Abs(b) < a - q * b <= 0
  {
    if a >= 0 then
      if b > 0 then a / b else -(a / -b)
    else
      if b > 0 then -((-a) / b) else (-a) / (-b)
  }

  /** The two divisions agree on a non-negative dividend. */
  lemma TruncDivIsEuclideanOnNonNegative(a: int, b: int)
    requires a >= 0 && b > 0
    ensures TruncDiv(a, b) == a / b
  {
  }

  /** ... and differ on a negative odd dividend: Kotlin gives -1, Dafny -2. */
  lemma TruncDivDiffersOnNegative()
    ensures TruncDiv(-3, 2) == -1 && -3 / 2 == -2
  {
  }

  /** Kotlin `roundToInt` inside the `Int` range: `floor(x + 0.5)`, the
      nearest integer, half-way cases going up. */
  function RoundToInt(x: real): (r: int)
    ensures r as real - 0.5 <= x < r as real + 0.5
  {
    (x + 0.5).Floor
  }

  /** The rounding is monotone: a larger argument never rounds lower. */
  lemma RoundToIntMonotone(x: real, y: real)
    requires x <= y
    ensures RoundToInt(x) <= RoundToInt(y)
  {
  }

  /** Kotlin `Double.roundToInt` in full: arguments beyond the `Int` range
      saturate at `Int.MAX_VALUE` / `Int.MIN_VALUE`. */
  function SaturatingRoundToInt(x: real): (r: int)
    ensures IntMin <= r <= IntMax
    ensures x > IntMax as real ==> r == IntMax
    ensures x < IntMin as real ==> r == IntMin
    ensures IntMin as real <= x <= IntMax as real ==> r as real - 0.5 <= x < r as real + 0.5
  {
    if x > IntMax as real then IntMax
    else if x < IntMin as real then IntMin
    else RoundToInt(x)
  }

  /** Kotlin `Int` addition: the mathematical sum reduced into the 32-bit
      two's-complement range. */
  function Int32Wrap(x: int): (r: int)
    ensures IntMin <= r <= IntMax
    ensures (x - r) % 0x1_0000_0000 == 0
    ensures IntMin <= x <= IntMax ==> r == x
  {
    (x - IntMin) % 0x1_0000_0000 + IntMin
  }

  /** Kotlin `Int.coerceIn(lo, hi)`: fails (throws) when the range is empty,
      otherwise yields the point of `[lo, hi]` nearest to `x`. */
  function CoerceIn(x: int, lo: int, hi: int): (r: Option<int>)
    ensures r.None? <==> lo > hi
    ensures r.Some? ==> lo <= r.value <= hi
    ensures r.Some? ==> forall y :: lo <= y <= hi ==> Gap(r.value, x) <= Gap(y, x)
  {
    if lo > hi then None
    else if x < lo then Some(lo)
    else if x > hi then Some(hi)
    else Some(x)
  }

  /** Kotlin `Float.coerceIn(lo, hi)`, with the same failure and nearest-point
      behaviour as the `Int` version. */
  function CoerceInReal(x: real, lo: real, hi: real): (r: Option<real>)
    ensures r.None? <==> lo > hi
    ensures r.Some? ==> lo <= r.value <= hi
    ensures r.Some? ==> forall y :: lo <= y <= hi ==> GapReal(r.value, x) <= GapReal(y, x)
  {
    if lo > hi then None
    else if x < lo then Some(lo)
    else if x > hi then Some(hi)
    else Some(x)
  }
}

=== FILE: layout.dfy ===
/** The layout side of the snapper: an immutable snapshot of a lazy list's
    layout (`LazyListSnapperLayoutInfo` over `LazyListState.layoutInfo`), the
    three stock snap offsets, and the queries the fling logic asks of it. */
module SnapperLayout {
  import opened Wrappers
  import opened KotlinMath

  /** One laid-out item: its position in the list, the offset of its leading
      edge from the viewport start, and its extent along the scroll axis. */
  datatype Item = Item(index: int, offset: int, size: int) {
    function EndEdge(): int { offset + size }
  }

  /** What the list reports after one layout pass. The visible items are in
      layout order; `totalItemsCount` counts all items, visible or not. */
  datatype ListSnapshot = ListSnapshot(
    viewportEndOffset: int,
    afterContentPadding: int,
    visibleItems: seq<Item>,
    totalItemsCount: int)
  {
    /** The lazy-list adapter always starts at offset 0. */
    function StartScrollOffset(): int { 0 }

    function EndScrollOffset(): int { viewportEndOffset - afterContentPadding }
  }

  /** Where inside the viewport a snapped item rests. */
  datatype SnapOffsets = Start | Center | End

  /** A layout snapshot read through a chosen snap offset. */
  datatype LayoutInfo = LayoutInfo(state: ListSnapshot, align: SnapOffsets)

  /** The snap offset for `item`: Start puts its leading edge on the viewport
      start, End puts its trailing edge on the viewport end, Center splits the
      slack (viewport length minus item size) in half with Kotlin's truncating
      division, so an odd slack loses its half pixel toward zero. */
  function SnapOffset(align: SnapOffsets, s: ListSnapshot, item: Item): (r: int)
    ensures align == Start ==> r == s.StartScrollOffset()
    ensures align == End ==> r + item.size == s.EndScrollOffset()
    ensures align == Center ==>
      var slack := s.EndScrollOffset() - s.StartScrollOffset() - item.size;
      var twice := 2 * (r - s.StartScrollOffset());
      && slack - 1 <= twice <= slack + 1
      && (slack >= 0 ==> twice <= slack)
      && (slack < 0 ==> twice >= slack)
  {
    match align
    case Start => s.StartScrollOffset()
    case Center =>
      s.StartScrollOffset() + TruncDiv(s.EndScrollOffset() - s.StartScrollOffset() - item.size, 2)
    case End => s.EndScrollOffset() - item.size
  }

  /** An item larger than the viewport by one pixel: Kotlin's Center offset
      is 0 where a Euclidean halving would give -1. */
  lemma CenterTruncatesTowardZero()
    ensures SnapOffset(Center, ListSnapshot(300, 0, [], 1), Item(0, 0, 301)) == 0
    ensures (300 - 301) / 2 == -1
  {
  }

  function SnapOffsetOf(info: LayoutInfo, item: Item): int {
    SnapOffset(info.align, info.state, item)
  }

  /** The item's signed distance from its snapped position. */
  function ResidualOf(info: LayoutInfo, item: Item): int {
    item.offset - SnapOffsetOf(info, item)
  }

  /** The item has reached or passed its snap offset. */
  predicate AtOrBeforeSnap(info: LayoutInfo, item: Item) {
    item.offset <= SnapOffsetOf(info, item)
  }

  /** Host invariant of a lazy-list layout pass: the visible items form a
      contiguous, offset-ordered run of `[0, totalItemsCount)` with
      non-negative sizes. */
  ghost predicate WellFormed(s: ListSnapshot) {
    var vis := s.visibleItems;
    && 0 <= s.totalItemsCount
    && (forall k | 0 <= k < |vis| :: vis[k].index == vis[0].index + k && 0 <= vis[k].size)
    && (|vis| > 0 ==> 0 <= vis[0].index && vis[|vis| - 1].index < s.totalItemsCount)
    && (forall i, j | 0 <= i < j < |vis| :: vis[i].offset <= vis[j].offset)
  }

  /** Item `index` is among the visible items. */
  ghost predicate Visible(s: ListSnapshot, index: int) {
    exists k | 0 <= k < |s.visibleItems| :: s.visibleItems[k].index == index
  }

  /** Position of the last item of `items` that has reached its snap offset,
      or -1 when none has. */
  function LastAtOrBeforeSnap(info: LayoutInfo, items: seq<Item>): (r: int)
    ensures -1 <= r < |items|
    ensures r >= 0 ==> AtOrBeforeSnap(info, items[r])
    ensures forall j | r < j < |items| :: !AtOrBeforeSnap(info, items[j])
    decreases |items|
  {
    if |items| == 0 then -1
    else if AtOrBeforeSnap(info, items[|items| - 1]) then |items| - 1
    else LastAtOrBeforeSnap(info, items[..|items| - 1])
  }

  /** `currentItem`: the item under the snap line, i.e. the last visible item
      whose offset is at or before its snap offset; absent when no visible
      item qualifies, in particular when nothing is visible. */
  function CurrentItem(info: LayoutInfo): (r: Option<Item>)
    ensures r.None? <==>
      forall k | 0 <= k < |info.state.visibleItems| :: !AtOrBeforeSnap(info, info.state.visibleItems[k])
    ensures r.Some? ==> exists k | 0 <= k < |info.state.visibleItems| ::
      && info.state.visibleItems[k] == r.value
      && AtOrBeforeSnap(info, r.value)
      && forall j | k < j < |info.state.visibleItems| :: !AtOrBeforeSnap(info, info.state.visibleItems[j])
  {
    var k := LastAtOrBeforeSnap(info, info.state.visibleItems);
    if k < 0 then None else Some(info.state.visibleItems[k])
  }

  /** Position of the first item carrying `index`, or -1 (`firstOrNull`). */
  function FirstWithIndex(items: seq<Item>, index: int): (r: int)
    ensures -1 <= r < |items|
    ensures r >= 0 ==> items[r].index == index
    ensures forall j | 0 <= j < |items| && (r < 0 || j < r) :: items[j].index != index
    decreases |items|
  {
    if |items| == 0 then -1
    else if items[0].index == index then 0
    else
      var t := FirstWithIndex(items[1..], index);
      if t < 0 then -1 else t + 1
  }

  /** Position of the first item with the smallest offset (`minByOrNull`). */
  function MinByOffset(items: seq<Item>): (r: nat)
    requires |items| > 0
    ensures r < |items|
    ensures forall j | 0 <= j < |items| :: items[r].offset <= items[j].offset
    decreases |items|
  {
    if |items| == 1 then 0
    else
      var t := MinByOffset(items[1..]) + 1;
      if items[0].offset <= items[t].offset then 0 else t
  }

  /** Position of the first item with the largest end edge (`maxByOrNull`). */
  function MaxByEnd(items: seq<Item>): (r: nat)
    requires |items| > 0
    ensures r < |items|
    ensures forall j | 0 <= j < |items| :: items[j].EndEdge() <= items[r].EndEdge()
    decreases |items|
  {
    if |items| == 1 then 0
    else
      var t := MaxByEnd(items[1..]) + 1;
      if items[0].EndEdge() >= items[t].EndEdge() then 0 else t
  }

  /** `calculateItemSpacing`: the gap between the first two visible items,
      0 when fewer than two are visible. */
  function CalculateItemSpacing(s: ListSnapshot): (r: int)
    ensures |s.visibleItems| >= 2 ==> s.visibleItems[0].EndEdge() + r == s.visibleItems[1].offset
    ensures |s.visibleItems| < 2 ==> r == 0
  {
    var vis := s.visibleItems;
    if |vis| >= 2 then vis[1].offset - (vis[0].size + vis[0].offset) else 0
  }

  /** Smallest leading edge over the visible items. */
  function LowestOffset(s: ListSnapshot): int
    requires |s.visibleItems| > 0
  {
    s.visibleItems[MinByOffset(s.visibleItems)].offset
  }

  /** Largest trailing edge over the visible items. */
  function HighestEnd(s: ListSnapshot): int
    requires |s.visibleItems| > 0
  {
    s.visibleItems[MaxByEnd(s.visibleItems)].EndEdge()
  }

  /** `estimateDistancePerItem`: the span from the lowest leading edge to the
      highest trailing edge, plus one spacing, shared out over the visible
      items; -1 when nothing is visible or the span is empty. */
  function EstimateDistancePerItem(s: ListSnapshot): (r: real)
    ensures |s.visibleItems| == 0 ==> r == -1.0
    ensures |s.visibleItems| > 0 && HighestEnd(s) == LowestOffset(s) ==> r == -1.0
  {
    var vis := s.visibleItems;
    if |vis| == 0 then -1.0
    else
      var minPos := vis[MinByOffset(vis)];
      var maxPos := vis[MaxByEnd(vis)];
      var start := if minPos.offset <= maxPos.offset then minPos.offset else maxPos.offset;
      var end := if minPos.EndEdge() >= maxPos.EndEdge() then minPos.EndEdge() else maxPos.EndEdge();
      var distance := end - start;
      if distance == 0 then -1.0
      else (distance + CalculateItemSpacing(s)) as real / |vis| as real
  }

  /** Away from the degenerate cases the estimate is the mean extent: the
      span from the lowest leading edge to the highest trailing edge, plus
      one spacing, over the number of visible items. The lowest edge and the
      highest edge come from `minByOrNull`/`maxByOrNull` items, which the
      Kotlin code combines once more with `min`/`max`. */
  lemma EstimateIsMeanExtent(s: ListSnapshot)
    requires |s.visibleItems| > 0 && HighestEnd(s) != LowestOffset(s)
    ensures EstimateDistancePerItem(s)
         == (HighestEnd(s) - LowestOffset(s) + CalculateItemSpacing(s)) as real / |s.visibleItems| as real
  {
  }

  /** `distanceToIndexSnap`: how far to scroll so that item `index` rests at
      its snap offset; exact when the item is visible, extrapolated from the
      current item with the per-item estimate otherwise, and 0 when neither
      the item nor a current item is visible. */
  function DistanceToIndexSnap(info: LayoutInfo, index: int): (r: int)
    ensures DistinctIndices(info.state.visibleItems) ==>
      forall k | 0 <= k < |info.state.visibleItems| && info.state.visibleItems[k].index == index ::
        r == ResidualOf(info, info.state.visibleItems[k])
    ensures !Visible(info.state, index) && CurrentItem(info).None? ==> r == 0
    ensures !Visible(info.state, index) && CurrentItem(info).Some? ==>
      r == Extrapolate(info, CurrentItem(info).value, index)
  {
    var vis := info.state.visibleItems;
    var p := FirstWithIndex(vis, index);
    assert p < 0 ==> !Visible(info.state, index);
    if p >= 0 then vis[p].offset - SnapOffsetOf(info, vis[p])
    else
      match CurrentItem(info)
      case None => 0
      case Some(cur) => Extrapolate(info, cur, index)
  }

  /** The estimated distance to item `index`, measured from a reference item
      `from`: the index gap times the per-item estimate, rounded with
      `roundToInt`, plus the reference item's own residual. */
  function Extrapolate(info: LayoutInfo, from: Item, index: int): int {
    RoundToInt((index - from.index) as real * EstimateDistancePerItem(info.state)) + ResidualOf(info, from)
  }

  /** The extrapolated distance is the reference item's residual plus the
      estimated travel to item `index`, off by at most half a pixel; from the
      reference item itself it is that item's residual. */
  lemma ExtrapolateWithinHalf(info: LayoutInfo, from: Item, index: int)
    ensures var estimate := (index - from.index) as real * EstimateDistancePerItem(info.state);
      var rounded := Extrapolate(info, from, index) - ResidualOf(info, from);
      rounded as real - 0.5 <= estimate < rounded as real + 0.5
    ensures index == from.index ==> Extrapolate(info, from, index) == ResidualOf(info, from)
  {
  }

  /** No index appears twice among the items. */
  ghost predicate DistinctIndices(items: seq<Item>) {
    forall i, j | 0 <= i < j < |items| :: items[i].index != items[j].index
  }

  lemma WellFormedIndicesDistinct(s: ListSnapshot)
    requires WellFormed(s)
    ensures DistinctIndices(s.visibleItems)
  {
  }

  /** `canScrollTowardsStart`: the first visible item is not item 0, or it
      still sticks out before the viewport start. */
  function CanScrollTowardsStart(s: ListSnapshot): (r: bool)
    ensures |s.visibleItems| == 0 ==> !r
  {
    |s.visibleItems| > 0 &&
      (s.visibleItems[0].index > 0 || s.visibleItems[0].offset < s.StartScrollOffset())
  }

  /** `canScrollTowardsEnd`: the last visible item is not the list's last, or
      it still sticks out past the viewport end. */
  function CanScrollTowardsEnd(s: ListSnapshot): (r: bool)
    ensures |s.visibleItems| == 0 ==> !r
  {
    var vis := s.visibleItems;
    |vis| > 0 &&
      (vis[|vis| - 1].index < s.totalItemsCount - 1 || vis[|vis| - 1].EndEdge() > s.EndScrollOffset())
  }

  /** On a well-formed non-empty layout the start edge is blocked exactly
      when item 0 is on screen with its leading edge at or after the viewport
      start. */
  lemma StartBlockedIffFirstItemShown(s: ListSnapshot)
    requires WellFormed(s) && |s.visibleItems| > 0
    ensures !CanScrollTowardsStart(s) <==>
      exists k | 0 <= k < |s.visibleItems| ::
        s.visibleItems[k].index == 0 && s.visibleItems[k].offset >= s.StartScrollOffset()
  {
    var vis := s.visibleItems;
    if exists k | 0 <= k < |vis| :: vis[k].index == 0 && vis[k].offset >= s.StartScrollOffset() {
      var k :| 0 <= k < |vis| && vis[k].index == 0 && vis[k].offset >= s.StartScrollOffset();
      assert vis[k].index == vis[0].index + k;
      assert k == 0;
    } else {
      assert !(vis[0].index == 0 && vis[0].offset >= s.StartScrollOffset());
    }
  }

  /** On a well-formed non-empty layout the end edge is blocked exactly when
      the list's last item is on screen with its trailing edge at or before
      the viewport end. */
  lemma EndBlockedIffLastItemShown(s: ListSnapshot)
    requires WellFormed(s) && |s.visibleItems| > 0
    ensures !CanScrollTowardsEnd(s) <==>
      exists k | 0 <= k < |s.visibleItems| ::
        s.visibleItems[k].index == s.totalItemsCount - 1 && s.visibleItems[k].EndEdge() <= s.EndScrollOffset()
  {
    var vis := s.visibleItems;
    var n := |vis|;
    if exists k | 0 <= k < n :: vis[k].index == s.totalItemsCount - 1 && vis[k].EndEdge() <= s.EndScrollOffset() {
      var k :| 0 <= k < n && vis[k].index == s.totalItemsCount - 1 && vis[k].EndEdge() <= s.EndScrollOffset();
      assert vis[k].index == vis[0].index + k;
      assert vis[n - 1].index == vis[0].index + (n - 1);
      assert k == n - 1;
    } else {
      assert !(vis[n - 1].index == s.totalItemsCount - 1 && vis[n - 1].EndEdge() <= s.EndScrollOffset());
    }
  }

  /** A run of consecutive items, all of one `size` and spaced by one `gap`. */
  ghost predicate UniformRun(items: seq<Item>, size: int, gap: int)
    decreases |items|
  {
    && (|items| > 0 ==> items[0].size == size)
    && (|items| >= 2 ==>
          && items[1].index == items[0].index + 1
          && items[1].offset == items[0].offset + size + gap
          && UniformRun(items[1..], size, gap))
  }

  /** A layout whose visible items form a uniform run of at least two items:
      the shape the per-item estimate is built for. */
  ghost predicate Uniform(s: ListSnapshot, size: int, gap: int) {
    |s.visibleItems| >= 2 && size >= 1 && gap >= 0 && UniformRun(s.visibleItems, size, gap)
  }

  /** The closed form of a uniform run. */
  lemma {:induction false} UniformRunAt(items: seq<Item>, size: int, gap: int, k: int)
    requires UniformRun(items, size, gap) && 0 <= k < |items|
    ensures items[k].index == items[0].index + k
    ensures items[k].size == size
    ensures items[k].offset == items[0].offset + k * (size + gap)
    decreases k
  {
    if k > 0 {
      UniformRunAt(items[1..], size, gap, k - 1);
      assert items[1..][k - 1] == items[k];
      assert k * (size + gap) == (k - 1) * (size + gap) + (size + gap);
    }
  }

  /** In a run with non-negative pitch the first item has the lowest offset. */
  lemma {:induction false} UniformRunMinIsFirst(items: seq<Item>, size: int, gap: int)
    requires UniformRun(items, size, gap) && |items| > 0 && size + gap >= 0
    ensures MinByOffset(items) == 0
    decreases |items|
  {
    if |items| > 1 {
      UniformRunMinIsFirst(items[1..], size, gap);
    }
  }

  /** In a run with positive pitch the last item has the highest end edge. */
  lemma {:induction false} UniformRunMaxIsLast(items: seq<Item>, size: int, gap: int)
    requires UniformRun(items, size, gap) && |items| > 0 && size + gap >= 1
    ensures MaxByEnd(items) == |items| - 1
    decreases |items|
  {
    if |items| > 1 {
      UniformRunMaxIsLast(items[1..], size, gap);
      var rest := items[1..];
      assert rest[0].EndEdge() <= rest[MaxByEnd(rest)].EndEdge();
      assert items[0].EndEdge() < items[1].EndEdge();
    }
  }

  lemma PitchArithmetic(n: int, size: int, gap: int)
    requires n >= 2 && size >= 1 && gap >= 0
    ensures (n - 1) * (size + gap) + size + gap == n * (size + gap)
    ensures (n - 1) * (size + gap) + size > 0
  {
  }

  lemma StrideArithmetic(k: int, c: int, p: int)
    ensures k * p - c * p == (k - c) * p
    ensures ((k - c) as real) * (p as real) == ((k - c) * p) as real
  {
  }

  /** On a uniform layout the per-item estimate is exactly one item plus one
      gap. */
  lemma {:induction false} UniformEstimateIsPitch(s: ListSnapshot, size: int, gap: int)
    requires Uniform(s, size, gap)
    ensures EstimateDistancePerItem(s) == (size + gap) as real
  {
    UniformSpan(s, size, gap);
    PitchArithmetic(|s.visibleItems|, size, gap);
    EstimateFromSpan(s, size + gap);
  }

  /** A span of `q` per visible item gives an estimate of exactly `q`. */
  lemma EstimateFromSpan(s: ListSnapshot, q: int)
    requires |s.visibleItems| > 0 && HighestEnd(s) != LowestOffset(s)
    requires HighestEnd(s) - LowestOffset(s) + CalculateItemSpacing(s) == |s.visibleItems| * q
    ensures EstimateDistancePerItem(s) == q as real
  {
    EstimateIsMeanExtent(s);
    CancelDivision(|s.visibleItems|, q);
  }

  lemma CancelDivision(n: int, q: int)
    requires n > 0
    ensures (n * q) as real / n as real == q as real
  {
    assert (n * q) as real == (n as real) * (q as real);
  }

  lemma {:induction false} UniformSpan(s: ListSnapshot, size: int, gap: int)
    requires Uniform(s, size, gap)
    ensures HighestEnd(s) - LowestOffset(s) == (|s.visibleItems| - 1) * (size + gap) + size
    ensures CalculateItemSpacing(s) == gap
  {
    var vis := s.visibleItems;
    UniformRunMinIsFirst(vis, size, gap);
    UniformRunMaxIsLast(vis, size, gap);
    UniformRunAt(vis, size, gap, |vis| - 1);
  }

  /** On a uniform layout the extrapolation from any visible item to any
      other visible item reproduces the exact distance: the estimate used for
      off-screen items agrees with the measured one where both are defined. */
  lemma {:induction false} UniformExtrapolationIsExact(info: LayoutInfo, size: int, gap: int, c: int, k: int)
    requires Uniform(info.state, size, gap)
    requires 0 <= c < |info.state.visibleItems| && 0 <= k < |info.state.visibleItems|
    ensures Extrapolate(info, info.state.visibleItems[c], info.state.visibleItems[k].index)
         == DistanceToIndexSnap(info, info.state.visibleItems[k].index)
  {
    var vis := info.state.visibleItems;
    var steps := (k - c) * (size + gap);
    UniformExtrapolateSteps(info, size, gap, c, k);
    UniformResidualSteps(info, size, gap, c, k);
    UniformRunDistinct(vis, size, gap);
    assert DistanceToIndexSnap(info, vis[k].index) == ResidualOf(info, vis[k]);
  }

  lemma UniformExtrapolateSteps(info: LayoutInfo, size: int, gap: int, c: int, k: int)
    requires Uniform(info.state, size, gap)
    requires 0 <= c < |info.state.visibleItems| && 0 <= k < |info.state.visibleItems|
    ensures Extrapolate(info, info.state.visibleItems[c], info.state.visibleItems[k].index)
         == (k - c) * (size + gap) + ResidualOf(info, info.state.visibleItems[c])
  {
    var vis := info.state.visibleItems;
    UniformRunAt(vis, size, gap, c);
    UniformRunAt(vis, size, gap, k);
    UniformEstimateIsPitch(info.state, size, gap);
    ExtrapolateByPitch(info, vis[c], k - c, size + gap);
  }

  /** With an exact per-item estimate `p`, extrapolating `d` items from a
      reference item adds exactly `d * p` to its residual. */
  lemma ExtrapolateByPitch(info: LayoutInfo, from: Item, d: int, p: int)
    requires EstimateDistancePerItem(info.state) == p as real
    ensures Extrapolate(info, from, from.index + d) == d * p + ResidualOf(info, from)
  {
    ScaledByPitch(d, p, EstimateDistancePerItem(info.state));
  }

  lemma UniformResidualSteps(info: LayoutInfo, size: int, gap: int, c: int, k: int)
    requires Uniform(info.state, size, gap)
    requires 0 <= c < |info.state.visibleItems| && 0 <= k < |info.state.visibleItems|
    ensures ResidualOf(info, info.state.visibleItems[k])
         == (k - c) * (size + gap) + ResidualOf(info, info.state.visibleItems[c])
  {
    var vis := info.state.visibleItems;
    UniformRunAt(vis, size, gap, c);
    UniformRunAt(vis, size, gap, k);
    StrideArithmetic(k, c, size + gap);
    assert SnapOffsetOf(info, vis[c]) == SnapOffsetOf(info, vis[k]);
  }

  lemma ScaledByPitch(d: int, p: int, est: real)
    requires est == p as real
    ensures RoundToInt((d as real) * est) == d * p
  {
    assert (d as real) * est == (d * p) as real;
  }

  lemma UniformRunDistinct(items: seq<Item>, size: int, gap: int)
    requires UniformRun(items, size, gap)
    ensures DistinctIndices(items)
  {
    forall i, j | 0 <= i < j < |items|
      ensures items[i].index != items[j].index
    {
      UniformRunAt(items, size, gap, i);
      UniformRunAt(items, size, gap, j);
    }
  }
}

=== FILE: target_index.dfy ===
/** `determineTargetIndex`: from a release velocity and the decay model's
    projected travel, choose the item the fling should come to rest on. */
module TargetIndex {
  import opened Wrappers
  import opened KotlinMath
  import opened SnapperLayout

  /** The `IllegalArgumentException`s the core can raise. */
  datatype FlingError =
    | EmptyCoerceRange             // `coerceIn` with minimum > maximum
    | MaxFlingDistanceNotPositive  // `require(maxFlingDistance > 0)`
    | TargetIndexOutOfRange        // `require(it in 0 until totalItemsCount)`

  /** Releases slower than this pick between the current and the next item
      by position alone. */
  const SlowVelocity: real := 0.5

  /** Kotlin `x.coerceIn(0, count - 1)` on an item index. */
  function CoerceIndex(x: int, count: int): (r: Result<int, FlingError>)
    ensures r.Failure? <==> count < 1
    ensures r.Failure? ==> r.error == EmptyCoerceRange
    ensures r.Success? ==> 0 <= r.value < count
    ensures r.Success? ==> forall y :: 0 <= y < count ==> Gap(r.value, x) <= Gap(y, x)
  {
    match CoerceIn(x, 0, count - 1)
    case None => Failure(EmptyCoerceRange)
    case Some(v) => Success(v)
  }

  /** Clamping only moves an index toward the list: the result lies between
      the requested index and the nearest end of the list. */
  lemma CoerceIndexBetween(x: int, count: int)
    requires count >= 1
    ensures x <= 0 ==> CoerceIndex(x, count).value == 0
    ensures 0 <= x < count ==> CoerceIndex(x, count).value == x
    ensures x >= count - 1 ==> CoerceIndex(x, count).value == count - 1
  {
    var r := CoerceIndex(x, count).value;
    if x <= 0 { assert Gap(r, x) <= Gap(0, x); }
    else if x < count { assert Gap(r, x) <= Gap(x, x); }
    else { assert Gap(r, x) <= Gap(count - 1, x); }
  }

  /** The decay projection clamped to `±maxFling` and then measured from a
      snap boundary: a backward fling adds the distance to the next item and
      may not come out positive, a forward fling adds the distance to the
      current item and may not come out negative. `None` when the clamp range
      is empty. */
  function AdjustedFlingDistance(velocity: real, projected: real, maxFling: real, toCurrent: int, toNext: int): (r: Option<real>)
    ensures r.None? <==> maxFling < 0.0
    ensures r.Some? && velocity < 0.0 ==> MinReal(toNext as real - maxFling, 0.0) <= r.value <= 0.0
    ensures r.Some? && velocity >= 0.0 ==> 0.0 <= r.value <= MaxReal(toCurrent as real + maxFling, 0.0)
    ensures r.Some? && AbsReal(projected) <= maxFling ==>
      r.value == if velocity < 0.0 then MinReal(projected + toNext as real, 0.0)
                 else MaxReal(projected + toCurrent as real, 0.0)
    ensures r.Some? && projected > maxFling ==>
      r.value == if velocity < 0.0 then MinReal(maxFling + toNext as real, 0.0)
                 else MaxReal(maxFling + toCurrent as real, 0.0)
    ensures r.Some? && projected < -maxFling ==>
      r.value == if velocity < 0.0 then MinReal(toNext as real - maxFling, 0.0)
                 else MaxReal(toCurrent as real - maxFling, 0.0)
  {
    match CoerceInReal(projected, -maxFling, maxFling)
    case None => None
    case Some(distance) =>
      if velocity < 0.0 then Some(MinReal(distance + toNext as real, 0.0))
      else Some(MaxReal(distance + toCurrent as real, 0.0))
  }

  /** The four layout measurements `determineTargetIndex` works from, once it
      has a current item. */
  datatype Measures = Measures(
    current: int,     // `curr.index`
    perItem: real,    // `estimateDistancePerItem()`
    toCurrent: int,   // `distanceToIndexSnap(curr.index)`
    toNext: int)      // `distanceToIndexSnap(curr.index + 1)`

  function MeasuresOf(info: LayoutInfo, curr: Item): Measures {
    Measures(curr.index, EstimateDistancePerItem(info.state),
             DistanceToIndexSnap(info, curr.index), DistanceToIndexSnap(info, curr.index + 1))
  }

  /** `flingDistance / distancePerItem - distanceToCurrent / distancePerItem`:
      the fling measured in items, less the current item's own fraction. */
  function IndexOffset(flingDistance: real, distanceToCurrent: int, distancePerItem: real): (r: real)
    requires distancePerItem > 0.0
    ensures r * distancePerItem == flingDistance - distanceToCurrent as real
    ensures r >= 0.0 <==> flingDistance >= distanceToCurrent as real
  {
    flingDistance / distancePerItem - distanceToCurrent as real / distancePerItem
  }

  /** The slow-release choice: the current item when it is strictly nearer
      its snap offset than the next one, the next one otherwise. */
  function SlowPick(m: Measures): (r: int)
    ensures r == m.current || r == m.current + 1
    ensures var picked := if r == m.current then m.toCurrent else m.toNext;
      var other := if r == m.current then m.toNext else m.toCurrent;
      Abs(picked) <= Abs(other)
    ensures Abs(m.toCurrent) == Abs(m.toNext) ==> r == m.current + 1
  {
    if Abs(m.toCurrent) < Abs(m.toNext) then m.current else m.current + 1
  }

  /** Everything after the current item is known, with unbounded integers:
      `projected` is the decay model's travel for the release velocity. */
  function ChooseTarget(m: Measures, velocity: real, projected: real, maxFling: real, count: int): (r: Result<int, FlingError>)
    ensures m.perItem <= 0.0 ==> r == Success(m.current)
    ensures m.perItem > 0.0 ==>
      && (r.Failure? <==> count < 1 || (AbsReal(velocity) >= SlowVelocity && maxFling < 0.0))
      && (r.Success? ==> 0 <= r.value < count)
    ensures r.Failure? ==> r.error == EmptyCoerceRange
  {
    if m.perItem <= 0.0 then Success(m.current)
    else if AbsReal(velocity) < SlowVelocity then CoerceIndex(SlowPick(m), count)
    else
      match AdjustedFlingDistance(velocity, projected, maxFling, m.toCurrent, m.toNext)
      case None => Failure(EmptyCoerceRange)
      case Some(f) => CoerceIndex(m.current + RoundToInt(IndexOffset(f, m.toCurrent, m.perItem)), count)
  }

  /** The same choice as the Kotlin code computes it on `Int`: `roundToInt`
      saturates at `Int.MAX_VALUE` and `curr.index + indexOffset` wraps at 32
      bits before `coerceIn`. */
  function ChooseTargetInt32(m: Measures, velocity: real, projected: real, maxFling: real, count: int): (r: Result<int, FlingError>)
    ensures m.perItem > 0.0 && r.Success? ==> 0 <= r.value < count
    ensures m.perItem > 0.0 && AbsReal(velocity) < SlowVelocity ==>
      r == ChooseTarget(m, velocity, projected, maxFling, count)
  {
    if m.perItem <= 0.0 then Success(m.current)
    else if AbsReal(velocity) < SlowVelocity then CoerceIndex(SlowPick(m), count)
    else
      match AdjustedFlingDistance(velocity, projected, maxFling, m.toCurrent, m.toNext)
      case None => Failure(EmptyCoerceRange)
      case Some(f) =>
        CoerceIndex(Int32Wrap(m.current + SaturatingRoundToInt(IndexOffset(f, m.toCurrent, m.perItem))), count)
  }

  /** `determineTargetIndex`: -1 without a current item, and otherwise the
      choice made from that item's measurements. */
  function DetermineTargetIndex(info: LayoutInfo, velocity: real, projection: real -> real, maxFling: real): (r: Result<int, FlingError>)
    ensures CurrentItem(info).None? ==> r == Success(-1)
    ensures CurrentItem(info).Some? && EstimateDistancePerItem(info.state) <= 0.0 ==>
      r == Success(CurrentItem(info).value.index)
    ensures CurrentItem(info).Some? && EstimateDistancePerItem(info.state) > 0.0 ==>
      && (r.Failure? <==> info.state.totalItemsCount < 1 || (AbsReal(velocity) >= SlowVelocity && maxFling < 0.0))
      && (r.Success? ==> 0 <= r.value < info.state.totalItemsCount)
    ensures r.Failure? ==> r.error == EmptyCoerceRange
  {
    match CurrentItem(info)
    case None => Success(-1)
    case Some(curr) =>
      ChooseTarget(MeasuresOf(info, curr), velocity, projection(velocity), maxFling, info.state.totalItemsCount)
  }

  lemma QuotientSign(a: real, b: int, p: real)
    requires p > 0.0
    ensures a >= 0.0 && b <= 0 ==> IndexOffset(a, b, p) >= 0.0
    ensures a <= 0.0 && -b as real < p ==> IndexOffset(a, b, p) < 1.0
  {
    DivSub(a, b as real, p);
    if a >= 0.0 && b <= 0 {
      DivNonNegative(a - b as real, p);
    }
    if a <= 0.0 && -b as real < p {
      DivBelowOne(a - b as real, p);
    }
  }

  lemma DivSub(a: real, b: real, p: real)
    requires p > 0.0
    ensures a / p - b / p == (a - b) / p
  {
  }

  lemma DivNonNegative(a: real, p: real)
    requires p > 0.0 && a >= 0.0
    ensures a / p >= 0.0
  {
  }

  lemma DivBelowOne(a: real, p: real)
    requires p > 0.0 && a < p
    ensures a / p < 1.0
  {
  }

  /** Measurements that a well-formed layout produces for its current item:
      the item is in the list and sits at or before its snap offset. */
  ghost predicate Settled(m: Measures, count: int) {
    0 <= m.current < count && m.toCurrent <= 0
  }

  /** A release toward the end never chooses an item before the current one. */
  lemma ChooseForwardNeverBehind(m: Measures, velocity: real, projected: real, maxFling: real, count: int)
    requires Settled(m, count) && m.perItem > 0.0 && maxFling >= 0.0
    requires velocity >= SlowVelocity
    ensures ChooseTarget(m, velocity, projected, maxFling, count).Success?
    ensures ChooseTarget(m, velocity, projected, maxFling, count).value >= m.current
  {
    var f := AdjustedFlingDistance(velocity, projected, maxFling, m.toCurrent, m.toNext).value;
    QuotientSign(f, m.toCurrent, m.perItem);
    CoerceIndexBetween(m.current + RoundToInt(IndexOffset(f, m.toCurrent, m.perItem)), count);
  }

  /** A release toward the start chooses at most the item after the current
      one, provided the current item is less than one item's extent before
      its snap offset. */
  lemma ChooseBackwardAtMostOne(m: Measures, velocity: real, projected: real, maxFling: real, count: int)
    requires Settled(m, count) && m.perItem > 0.0 && maxFling >= 0.0
    requires velocity <= -SlowVelocity && -m.toCurrent as real < m.perItem
    ensures ChooseTarget(m, velocity, projected, maxFling, count).Success?
    ensures ChooseTarget(m, velocity, projected, maxFling, count).value <= m.current + 1
  {
    var f := AdjustedFlingDistance(velocity, projected, maxFling, m.toCurrent, m.toNext).value;
    QuotientSign(f, m.toCurrent, m.perItem);
    CoerceIndexBetween(m.current + RoundToInt(IndexOffset(f, m.toCurrent, m.perItem)), count);
  }

  /** A release toward the end whose projected travel stops short of the
      next item's snap offset chooses the current item or the next one, when
      the next item lies at most one item's extent beyond the current one. */
  lemma ChooseForwardWithinReach(m: Measures, velocity: real, projected: real, maxFling: real, count: int)
    requires Settled(m, count) && m.perItem > 0.0 && maxFling >= 0.0
    requires velocity >= SlowVelocity && 0.0 <= projected < m.toNext as real
    requires m.toNext as real <= m.toCurrent as real + m.perItem
    ensures ChooseTarget(m, velocity, projected, maxFling, count).Success?
    ensures m.current <= ChooseTarget(m, velocity, projected, maxFling, count).value <= m.current + 1
  {
    var f := AdjustedFlingDistance(velocity, projected, maxFling, m.toCurrent, m.toNext).value;
    var x := IndexOffset(f, m.toCurrent, m.perItem);
    assert f - m.toCurrent as real < m.perItem by {
      var clamped := CoerceInReal(projected, -maxFling, maxFling).value;
      assert GapReal(clamped, projected) <= GapReal(if projected <= maxFling then projected else maxFling, projected);
      assert 0.0 <= clamped <= projected;
    }
    DivSub(f, m.toCurrent as real, m.perItem);
    DivBelowOne(f - m.toCurrent as real, m.perItem);
    QuotientSign(f, m.toCurrent, m.perItem);
    CoerceIndexBetween(m.current + RoundToInt(x), count);
  }

  /** `ChooseForwardWithinReach` for a result known to be that choice and an
      index known to be the current one. It exists only to keep the caller's
      proof context small. */
  lemma ForwardTargetBetween(t: Result<int, FlingError>, current: int, m: Measures, velocity: real, projected: real,
                             maxFling: real, count: int)
    requires Settled(m, count) && m.perItem > 0.0 && maxFling >= 0.0
    requires velocity >= SlowVelocity && 0.0 <= projected < m.toNext as real
    requires m.toNext as real <= m.toCurrent as real + m.perItem
    requires t == ChooseTarget(m, velocity, projected, maxFling, count) && current == m.current
    ensures t.Success? && current <= t.value <= current + 1
  {
    ChooseForwardWithinReach(m, velocity, projected, maxFling, count);
  }

  /** A slow release chooses whichever of the current and the next item is
      nearer its snap offset, the next one on a tie, when both are items of
      the list; from the last item it stays on the last item, since
      `coerceIn` clamps the next index back into the list. */
  lemma ChooseSlowPicksNearer(m: Measures, velocity: real, projected: real, maxFling: real, count: int)
    requires m.perItem > 0.0 && AbsReal(velocity) < SlowVelocity
    requires 0 <= m.current < count
    ensures var r := ChooseTarget(m, velocity, projected, maxFling, count);
      && r.Success?
      && (m.current + 1 < count ==> (r.value == m.current <==> Abs(m.toCurrent) < Abs(m.toNext)))
      && (m.current + 1 < count ==> (r.value == m.current + 1 <==> Abs(m.toNext) <= Abs(m.toCurrent)))
      && (m.current == count - 1 ==> r.value == count - 1)
  {
    CoerceIndexBetween(SlowPick(m), count);
  }

  /** A fast release picks the item whose estimated snap position is nearest
      the adjusted landing point, clamped to the list: item `k` is chosen
      whenever the landing point lies within half an item's extent of `k`'s
      estimated position, counted in items from the current one. */
  lemma ChooseFastPicksNearestEstimate(m: Measures, velocity: real, projected: real, maxFling: real, count: int, k: int)
    requires m.perItem > 0.0 && AbsReal(velocity) >= SlowVelocity && maxFling >= 0.0
    requires var f := AdjustedFlingDistance(velocity, projected, maxFling, m.toCurrent, m.toNext).value;
      var away := f - m.toCurrent as real - (k - m.current) as real * m.perItem;
      -m.perItem / 2.0 <= away < m.perItem / 2.0
    ensures ChooseTarget(m, velocity, projected, maxFling, count) == CoerceIndex(k, count)
  {
    var f := AdjustedFlingDistance(velocity, projected, maxFling, m.toCurrent, m.toNext).value;
    RoundsToNearestStep(f, m.toCurrent, m.perItem, k - m.current);
  }

  /** The rounded offset in items is `steps` exactly when the fling lands
      within half an item's extent of `steps` items past the current one. */
  lemma RoundsToNearestStep(f: real, toCurrent: int, perItem: real, steps: int)
    requires perItem > 0.0
    requires -perItem / 2.0 <= f - toCurrent as real - steps as real * perItem < perItem / 2.0
    ensures RoundToInt(IndexOffset(f, toCurrent, perItem)) == steps
  {
    var x := IndexOffset(f, toCurrent, perItem);
    var y := x - steps as real;
    assert y * perItem == f - toCurrent as real - steps as real * perItem;
    WithinHalfUnscaled(y, perItem);
    RoundToIntUnique(x, steps);
  }

  /** Dividing a value within half of `p` of zero by `p` leaves it within
      half of zero. */
  lemma WithinHalfUnscaled(y: real, p: real)
    requires p > 0.0 && -p / 2.0 <= y * p < p / 2.0
    ensures -0.5 <= y < 0.5
  {
  }

  /** `roundToInt` is the only integer within half a unit below and less than
      half a unit above its argument. */
  lemma RoundToIntUnique(x: real, n: int)
    requires n as real - 0.5 <= x < n as real + 0.5
    ensures RoundToInt(x) == n
  {
  }

  /** Where nothing overflows, the Kotlin `Int` arithmetic chooses what the
      unbounded arithmetic chooses: the difference starts only once the
      rounded offset or `curr.index + indexOffset` leaves the `Int` range. */
  lemma ChooseTargetInt32AgreesWithinInt(m: Measures, velocity: real, projected: real, maxFling: real, count: int)
    requires m.perItem > 0.0 && maxFling >= 0.0
    requires var f := AdjustedFlingDistance(velocity, projected, maxFling, m.toCurrent, m.toNext).value;
      var n := RoundToInt(IndexOffset(f, m.toCurrent, m.perItem));
      IntMin <= n <= IntMax && IntMin <= m.current + n <= IntMax
    ensures ChooseTargetInt32(m, velocity, projected, maxFling, count) == ChooseTarget(m, velocity, projected, maxFling, count)
  {
    var f := AdjustedFlingDistance(velocity, projected, maxFling, m.toCurrent, m.toNext).value;
    var x := IndexOffset(f, m.toCurrent, m.perItem);
    var n := RoundToInt(x);
    if IntMin as real <= x <= IntMax as real {
      RoundToIntUnique(x, SaturatingRoundToInt(x));
    }
    assert SaturatingRoundToInt(x) == n;
  }

  /** The current item of a well-formed layout is measured exactly, and its
      measurements are settled. */
  lemma CurrentResidual(info: LayoutInfo)
    requires WellFormed(info.state) && CurrentItem(info).Some?
    ensures DistanceToIndexSnap(info, CurrentItem(info).value.index) == ResidualOf(info, CurrentItem(info).value)
    ensures Settled(MeasuresOf(info, CurrentItem(info).value), info.state.totalItemsCount)
  {
    var vis := info.state.visibleItems;
    var cur := CurrentItem(info).value;
    var k :| 0 <= k < |vis| && vis[k] == cur;
    WellFormedIndicesDistinct(info.state);
    assert vis[k].index == vis[0].index + k;
    assert vis[|vis| - 1].index == vis[0].index + (|vis| - 1);
  }

  /** On a well-formed layout with a non-negative fling bound the target is
      always an index of the list, whatever the velocity and whatever the
      decay model projects. */
  lemma TargetAlwaysInRange(info: LayoutInfo, velocity: real, projection: real -> real, maxFling: real)
    requires WellFormed(info.state) && maxFling >= 0.0 && CurrentItem(info).Some?
    ensures DetermineTargetIndex(info, velocity, projection, maxFling).Success?
    ensures 0 <= DetermineTargetIndex(info, velocity, projection, maxFling).value < info.state.totalItemsCount
  {
    CurrentResidual(info);
  }

  /** On any layout with a current item and a positive per-item estimate, a
      fast release targets the item whose estimated snap position is nearest
      the adjusted landing point, clamped to the list; `m` names the current
      item's measurements. */
  lemma FastTargetIsNearestEstimate(info: LayoutInfo, velocity: real, projection: real -> real, maxFling: real,
                                    m: Measures, k: int)
    requires CurrentItem(info).Some? && m == MeasuresOf(info, CurrentItem(info).value)
    requires m.perItem > 0.0 && AbsReal(velocity) >= SlowVelocity && maxFling >= 0.0
    requires var f := AdjustedFlingDistance(velocity, projection(velocity), maxFling, m.toCurrent, m.toNext).value;
      -m.perItem / 2.0 <= f - m.toCurrent as real - (k - m.current) as real * m.perItem < m.perItem / 2.0
    ensures DetermineTargetIndex(info, velocity, projection, maxFling) == CoerceIndex(k, info.state.totalItemsCount)
  {
    ChooseFastPicksNearestEstimate(m, velocity, projection(velocity), maxFling, info.state.totalItemsCount, k);
  }

  /** A release toward the end never targets an item before the current
      one. */
  lemma ForwardFlingNeverTargetsBehind(info: LayoutInfo, velocity: real, projection: real -> real, maxFling: real)
    requires WellFormed(info.state) && maxFling >= 0.0 && CurrentItem(info).Some?
    requires velocity >= SlowVelocity
    ensures DetermineTargetIndex(info, velocity, projection, maxFling).Success?
    ensures DetermineTargetIndex(info, velocity, projection, maxFling).value >= CurrentItem(info).value.index
  {
    var m := MeasuresOf(info, CurrentItem(info).value);
    CurrentResidual(info);
    if m.perItem > 0.0 {
      ChooseForwardNeverBehind(m, velocity, projection(velocity), maxFling, info.state.totalItemsCount);
    }
  }

  /** A release toward the start moves the target at most one item past the
      current one, provided the current item's residual is less than one
      item's extent. */
  lemma BackwardFlingAdvancesAtMostOne(info: LayoutInfo, velocity: real, projection: real -> real, maxFling: real)
    requires WellFormed(info.state) && maxFling >= 0.0 && CurrentItem(info).Some?
    requires velocity <= -SlowVelocity
    requires -ResidualOf(info, CurrentItem(info).value) as real < EstimateDistancePerItem(info.state)
    ensures DetermineTargetIndex(info, velocity, projection, maxFling).Success?
    ensures DetermineTargetIndex(info, velocity, projection, maxFling).value <= CurrentItem(info).value.index + 1
  {
    var m := MeasuresOf(info, CurrentItem(info).value);
    CurrentResidual(info);
    if m.perItem > 0.0 {
      ChooseBackwardAtMostOne(m, velocity, projection(velocity), maxFling, info.state.totalItemsCount);
    }
  }

  /** Three items of extent 100 at offsets 0, 100 and 200 in a list of 20,
      snapped at their start: item 5 is current and an item is 100 long. */
  function WrapExampleInfo(): LayoutInfo {
    LayoutInfo(ListSnapshot(300, 0, [Item(5, 0, 100), Item(6, 100, 100), Item(7, 200, 100)], 20), Start)
  }

  /** The measurements `determineTargetIndex` takes from that layout. */
  lemma WrapExampleMeasures()
    ensures CurrentItem(WrapExampleInfo()) == Some(Item(5, 0, 100))
    ensures MeasuresOf(WrapExampleInfo(), Item(5, 0, 100)) == Measures(5, 100.0, 0, 100)
  {
    WrapExampleCurrent();
    WrapExampleEstimate();
    WrapExampleDistances();
  }

  lemma WrapExampleCurrent()
    ensures CurrentItem(WrapExampleInfo()) == Some(Item(5, 0, 100))
  {
    var info := WrapExampleInfo();
    var vis := info.state.visibleItems;
    assert !AtOrBeforeSnap(info, vis[2]) && !AtOrBeforeSnap(info, vis[1]) && AtOrBeforeSnap(info, vis[0]);
    assert vis[..2][..1] == vis[..1];
    assert LastAtOrBeforeSnap(info, vis[..1]) == 0;
  }

  lemma WrapExampleEstimate()
    ensures EstimateDistancePerItem(WrapExampleInfo().state) == 100.0
  {
    var s := WrapExampleInfo().state;
    assert LowestOffset(s) == 0 && HighestEnd(s) == 300;
    assert CalculateItemSpacing(s) == 0;
  }

  lemma WrapExampleDistances()
    ensures DistanceToIndexSnap(WrapExampleInfo(), 5) == 0
    ensures DistanceToIndexSnap(WrapExampleInfo(), 6) == 100
  {
    var vis := WrapExampleInfo().state.visibleItems;
    assert vis[0].index == 5 && vis[1].index == 6;
    assert DistinctIndices(vis);
  }

  /** A long item scrolled mostly out of view: item 5 is 1100 long and
      starts 1000 before the viewport, item 6 is 200 long and starts at 100,
      in a list of 20 snapped at their start. The estimate is 650 per item. */
  function LongItemInfo(): LayoutInfo {
    LayoutInfo(ListSnapshot(300, 0, [Item(5, -1000, 1100), Item(6, 100, 200)], 20), Start)
  }

  /** On that well-formed layout a release toward the start whose decay
      projects 50 back is clamped to a landing point of 0 by the next item's
      distance, and the current item's residual of -1000 then counts as 1.54
      items ahead: the target is item 7, two past the current one, and the
      list springs 300 toward the end, against the fling. */
  lemma BackwardFlingPastLongItemSkipsAhead(maxFling: real)
    requires maxFling >= 50.0
    ensures WellFormed(LongItemInfo().state)
    ensures CurrentItem(LongItemInfo()) == Some(Item(5, -1000, 1100))
    ensures DetermineTargetIndex(LongItemInfo(), -1.0, _ => -50.0, maxFling) == Success(7)
    ensures DistanceToIndexSnap(LongItemInfo(), 7) == 300
  {
    var info := LongItemInfo();
    var vis := info.state.visibleItems;
    assert !AtOrBeforeSnap(info, vis[1]) && AtOrBeforeSnap(info, vis[0]);
    assert vis[..1][..1] == vis[..1];
    assert LastAtOrBeforeSnap(info, vis[..1]) == 0;
    assert CurrentItem(info) == Some(Item(5, -1000, 1100));
    assert LowestOffset(info.state) == -1000 && HighestEnd(info.state) == 300;
    assert CalculateItemSpacing(info.state) == 0;
    assert EstimateDistancePerItem(info.state) == 650.0;
    assert vis[0].index == 5 && vis[1].index == 6;
    assert DistinctIndices(vis);
    assert DistanceToIndexSnap(info, 5) == -1000;
    assert DistanceToIndexSnap(info, 6) == 100;
    var m := Measures(5, 650.0, -1000, 100);
    assert AdjustedFlingDistance(-1.0, -50.0, maxFling, -1000, 100) == Some(0.0);
    var x := IndexOffset(0.0, -1000, 650.0);
    assert x * 650.0 == 1000.0;
    assert 1.5 <= x < 2.5;
    RoundToIntUnique(x, 2);
    CoerceIndexBetween(7, 20);
    assert !Visible(info.state, 7);
    assert RoundToInt(2.0 * 650.0) == 1300;
  }

  /** As written, a forward fling whose projection is 10^10 items long
      saturates `roundToInt` at `Int.MAX_VALUE`; adding the current index 5
      wraps to a large negative `Int`, and `coerceIn` turns that into index
      0: the list flings back to its first item. */
  lemma HugeForwardFlingWrapsToStart()
    ensures ChooseTargetInt32(Measures(5, 100.0, 0, 100), 1000.0, 1_000_000_000_000.0, 1_000_000_000_000.0, 20)
         == Success(0)
  {
    var x := IndexOffset(1_000_000_000_000.0, 0, 100.0);
    assert x == 10_000_000_000.0;
    assert SaturatingRoundToInt(x) == IntMax;
    assert Int32Wrap(5 + IntMax) == IntMin + 4;
    CoerceIndexBetween(IntMin + 4, 20);
  }

  /** With unbounded integers the same fling comes to rest on the last item. */
  lemma HugeForwardFlingReachesEnd()
    ensures ChooseTarget(Measures(5, 100.0, 0, 100), 1000.0, 1_000_000_000_000.0, 1_000_000_000_000.0, 20)
         == Success(19)
  {
    var x := IndexOffset(1_000_000_000_000.0, 0, 100.0);
    assert x == 10_000_000_000.0;
    assert RoundToInt(x) == 10_000_000_000;
    CoerceIndexBetween(5 + 10_000_000_000, 20);
  }
}

=== FILE: wrappers.dfy ===
/** Optional and fallible results: `Option` stands for Kotlin's nullable
    results (`firstOrNull`, `lastOrNull`, `currentItem`), `Result` for a call
    that either returns or throws `IllegalArgumentException`. */
module Wrappers {

  datatype Option<+T> = None | Some(value: T)

  datatype Result<+R, +E> = Success(value: R) | Failure(error: E)
}
